=== FILE: README.md ===
# smart-journal: a Dafny model of the interactive journaling core

This project models the core of a terminal journaling tool. The user picks an
action from a five-item menu, writes a journal entry in a draft buffer, saves
it (Markdown entries are first reformatted by an external tool), browses saved
entries newest first, and edits three settings rows. The model covers:

- **`App`** (`app.dfy`): the application record and its pure step function
  `Step(app, key, collaborators)`. There is one handler each for the main
  menu, the draft screen, the journal list, the settings and the help screen;
  the Quit screen is an inline arm of `Step` that ignores every key. The
  draft editor is a cursor-addressed buffer with clamped motions. The save re-entrancy guard and
  the settings draft/commit/cancel cycle are modelled. `Run` feeds turns to
  `Step` until the Quit screen is reached or a handler fails.
- **`Config`** (`config.dfy`): the three file formats with their extensions and
  labels, the default configuration, and the journal file path.
- **`Journal`** (`journal.dfy`): the date string that names a day's file, the
  file-name filter used when loading, the newest-first sort, the whole load, and
  the file layout a save produces.
- **`Text`** (`text.dfy`): decimal formatting (`{}` and `{:02}`) with its
  read-back, and the lexicographic order Rust uses on strings.
- **`AppProperties`** (`app_properties.dfy`): lemmas about `Step` and `Run`.
- **`Outcomes`** (`outcomes.dfy`): `Option` and `Result`.

Collaborators the core cannot see are inputs to the model:

- The persistence and configuration collaborators become a `Collaborators`
  value. It holds the outcomes of the draft save, the journal load and the
  configuration save.
- The clock becomes year, month and day parameters.
- The external formatting tool becomes an `llm` outcome, and JSON
  serialisation becomes a `json` outcome.
- JSON content extraction becomes an `extractJson` function parameter.
- The file system becomes a map from path to contents (for saving) and a
  `Directory` listing (for loading).

Behaviour of the code worth knowing:

- A configuration save that fails during a settings commit is fatal. The
  failure propagates out of the event loop. No error message is posted, and
  the in-memory configuration has already changed.
- The settings list has three rows. Committing the third row (date format)
  changes nothing, but still saves the configuration and reports success.
- In Editing mode every character key is inserted, not only printable ones.
- The processing latch is set and cleared inside a single keystroke. It is
  never set between keystrokes.

## Model

| member | source | states |
|---|---|---|
| Text.ZeroPad2 | src/commands/journal.rs:237-242 | `{:02}` output is all digits, reads back as the number, and is exactly two characters below 100 |
| Text.DecimalRoundTrip | src/commands/journal.rs:237-242 | reading back the `{}` digits of a year gives the year |
| Text.Decimal | src/commands/journal.rs:237-242 | `{}` output is a non-empty digit string, one digit long exactly below 10 |
| Text.LexLess | src/commands/journal.rs:337 | the string order is strict (never relates a string to itself), and a proper prefix comes before the longer string |
| Text.DigitsOrder | src/commands/journal.rs:337 | on equal-width digit strings, string order is numeric order, and equal strings are equal numbers |
| Text.LexLessTotal | src/commands/journal.rs:337 | the string order used by the sort is total on distinct strings |
| Config.Extension | src/config/mod.rs:23-29 | every extension is non-empty and has no dot or slash, so it survives the join and the split of a file name |
| Config.ExtensionInjective | src/config/mod.rs:23-29 | distinct formats have distinct extensions |
| Config.DisplayName | src/config/mod.rs:31-37 | each label ends with "(.ext)" for its own format's extension |
| Config.DisplayNameInjective | src/config/mod.rs:31-37 | the three labels are distinct |
| Config.HomeOrCurrent | src/config/mod.rs:42 | the base is the home directory when it is known, else "." |
| Config.DefaultConfig | src/config/mod.rs:40-53 | default: Markdown, "%Y-%m-%d", no auto-backup, no editor; the directory starts with the home directory (or ".") and ends with the components Documents and RustyDiary |
| Config.JoinPath | src/config/mod.rs:94-97 | the joined path ends with the name and starts with the directory, and its final component is the name |
| Config.JournalFileName | src/config/mod.rs:94-96 | the file name starts with the date and ends with "." and the format's extension, and has no '/' when the date has none |
| Config.JournalFilePath | src/config/mod.rs:94-97 | the journal file starts with the journal directory, its final component is date "." extension, and (for a date without '/') it is at most one separator longer than directory plus name, so it lies directly in the directory |
| Journal.DateString | src/commands/journal.rs:236-242 | the date has no '.' or '/'; for four-digit years it is YYYY-MM-DD, and its digit groups read back as year, month and day |
| Journal.DateOrder | src/commands/journal.rs:236-242 | for four-digit years, date strings compare as text exactly as the dates compare in the calendar, and equal strings mean equal dates |
| Journal.DateTextOrder | src/commands/journal.rs:336-337 | any two YYYY-MM-DD strings sort as text in calendar order |
| Journal.SplitFileName | src/commands/journal.rs:294-297 | an extension exists only after a non-empty stem, has no dot, and stem "." extension rebuilds the name; without one the stem is the name |
| Journal.SplitFileNameRoundTrip | src/commands/journal.rs:294-297 | splitting stem "." ext gives back stem and ext |
| Journal.IsJournalFileName | src/commands/journal.rs:294-302 | an accepted name has '-' at positions 4 and 7, at least ten characters before the dot, and ends with "." and the configured extension |
| Journal.JournalFileNameShape | src/commands/journal.rs:294-302 | a name the filter accepts is its dated stem, a dot, and the configured extension |
| Journal.SavedFileIsLoadable | src/commands/journal.rs:299-301 | the file named by a save (four-digit year) passes the load filter, and its stem is the date |
| Journal.Collect | src/commands/journal.rs:288-334 | succeeds iff every file the filter accepts is readable; then yields one entry per accepted file (count and membership both ways), each with stem as date and full name as file name |
| Journal.InsertByDateCorrect | src/commands/journal.rs:337 | inserting into a newest-first list keeps it newest-first and adds exactly that entry |
| Journal.MakeEntry | src/commands/journal.rs:324-328 | the entry keeps the full file name and takes the stem as its date; non-JSON content is the file's text; for an accepted name the file name is date "." extension and the date has at least ten characters |
| Journal.SortNewestFirst | src/commands/journal.rs:336-337 | the sort yields a permutation of its input, ordered newest first |
| Journal.LoadEntries | src/commands/journal.rs:279-340 | a missing directory loads nothing; an unlistable one or an unreadable accepted file fails; otherwise the result is newest first and holds exactly one entry per accepted file |
| Journal.LoadedEntriesNamedByDate | src/commands/journal.rs:324-328 | every loaded entry has a dated stem as its date, and date "." extension as its file name |
| Journal.SaveEntry | src/commands/journal.rs:232-277 | succeeds iff the directory is created and formatting succeeds; failure changes no file; success changes only the day's file, keeps its old content as a prefix, and ends it with the formatted entry and a newline |
| Journal.WriteDayFile | src/commands/journal.rs:261-275 | writing the day's file changes no other file, keeps the old content as a prefix, and ends the file with the text and a newline |
| Journal.PlainTextLayout | src/commands/journal.rs:261-275 | plain text: a new file holds entry "\n"; an existing one becomes old "\n---\n\n" entry "\n" |
| Journal.FormatEntry | src/commands/journal.rs:251-259 | plain text is stored verbatim; Markdown takes the tool's outcome and JSON the serialiser's; formatting fails exactly when the chosen one fails |
| Journal.FormattingFailureLeavesFiles | src/commands/journal.rs:251-261 | a failing formatter (Markdown tool, JSON) returns its error before any file is opened |
| App.InsertChar | src/app.rs:175-178 | the character lands at the cursor; the text before and after is kept; the cursor moves past it and stays in range |
| App.DeleteBeforeCursor | src/app.rs:179-184 | at position 0 nothing changes; otherwise the cursor moves back one and retyping the removed character restores the draft |
| App.MoveLeft | src/app.rs:185-189 | moves back by at most one and stays put only at position 0; the text is unchanged |
| App.MoveRight | src/app.rs:190-194 | moves forward by at most one and stays put only at the end; the text is unchanged |
| App.MoveHome | src/app.rs:195 | keeps the text and puts the cursor at the start |
| App.MoveEnd | src/app.rs:196 | keeps the text and puts the cursor at the end of the draft |
| App.NewApp | src/app.rs:57-76 | starts iff the configuration loads, else fails with its error; the start state is on the main menu in Normal mode with the loaded configuration, an empty draft, no message, no entries, all indices 0, no settings edit and no latch |
| App.ResetInputState | src/app.rs:347-352 | empties the draft, resets the cursor, mode and latch; the screen and configuration are unchanged |
| App.SaveJournalEntry | src/app.rs:272-291 | success empties the draft in Normal mode with a Success message; failure keeps the draft and reports the error; the latch is released either way, and nothing but draft, mode, message and latch changes |
| App.LoadJournalEntries | src/app.rs:293-309 | success replaces the list, selects the first entry and reports "Loaded N journal entries"; failure keeps list and selection and reports "Failed to load journals: " and the error; nothing but list, selection and message changes |
| App.FormatFromToken | src/app.rs:332-336 | "txt" gives PlainText, "json" gives Json, and every other token gives Markdown |
| App.FormatToken | src/app.rs:315-319 | the format row's seed token is the format's file extension |
| App.StartEditingSetting | src/app.rs:311-322 | enters edit mode seeded with the directory, the format's extension (which commits back to the same format), or an empty draft for the third row; nothing but the edit flag and draft changes |
| App.CommittedConfig | src/app.rs:324-339 | a commit never touches the date pattern, auto-backup or editor; only row 0 changes the directory (to the draft) and only row 1 the format ("txt", "json", else Markdown) |
| App.ApplySettingsChange | src/app.rs:324-345 | the configuration is committed before it is saved; a failing save aborts with the committed configuration and nothing else changed; a successful one changes only the configuration and posts the Success message |
| App.HandleMainInput | src/app.rs:122-148 | keeps every bound; Up and Down move the menu index by one, clamped to 0..4; Esc and 'q' go to Quit; Enter on items 0, 2, 3, 4 opens exactly AddJournal, Settings, Help, Quit, and on item 1 is the journal load followed by opening the list; every other key changes nothing |
| App.HandleAddJournalInput | src/app.rs:150-201 | keeps every bound; in Normal mode 'e' enters Editing with only mode and message changed, Esc and 'q' reset the draft, mode and latch and return to the main menu, 's' saves a non-empty draft when no save is in progress and otherwise changes nothing, and other keys change nothing; in Editing mode every key but Esc is a draft edit, and Esc returns to Normal keeping the draft and posting the save-or-quit hint |
| App.HandleViewJournalsInput | src/app.rs:203-221 | keeps every bound; Up moves the selection back by one down to 0, Down forward by one up to the last entry, changing nothing else; Esc and 'q' return to the main menu; 'r' is exactly the journal load; other keys change nothing |
| App.HandleSettingsInput | src/app.rs:223-263 | keeps every bound; browsing: Up/Down move the row clamped to 0..2, Enter starts editing, Esc and 'q' return to the main menu, other keys change nothing; editing: Esc discards the draft, Enter commits it and on success leaves edit mode with an empty draft; only that commit can abort, and only on a failing configuration save |
| App.HandleHelpInput | src/app.rs:265-270 | Esc and 'q' return to the main menu; every other key changes nothing |
| App.EditDraft | src/app.rs:174-197 | a character is inserted at the cursor, Backspace removes the character before it, Left/Right move by one clamped to the draft, Home/End go to 0 and the end, other keys change nothing; the cursor stays within the draft |
| App.Step | src/app.rs:110-120 | every key press keeps the bounds; an abort comes only from committing a setting whose save fails |
| App.Run | src/app.rs:78-108 | the loop exits only on the Quit screen; it fails only out of a settings commit; bounds hold throughout |
| AppProperties.InsertThenDeleteRestores | src/app.rs:175-184 | Backspace right after typing a character restores the draft |
| AppProperties.LeftRightInverse | src/app.rs:185-194 | Left and Right undo each other away from the draft's ends |
| AppProperties.EnterEditingKeepsDraft | src/app.rs:152-156 | on the draft screen in Normal mode, 'e' enters Editing and keeps the draft, cursor and screen |
| AppProperties.EditingCursorKeys | src/app.rs:185-196 | in Editing mode Left, Right, Home and End keep the text and set the cursor to max(c-1, 0), min(c+1, length), 0 and length |
| AppProperties.EditingTypesEveryChar | src/app.rs:169-178 | in Editing mode every character, 'q', 's' and 'e' included, is inserted; screen and mode stay |
| AppProperties.OnlyEscLeavesEditing | src/app.rs:169-198 | in Editing mode the mode turns Normal iff the key is Esc, Esc keeps the draft, and nothing but draft, mode and message changes |
| AppProperties.BackspaceInDraft | src/app.rs:179-184 | Backspace at 0 is a no-op; otherwise it removes exactly the character before the cursor |
| AppProperties.MenuPressesSaturate | src/app.rs:125-134 | n Downs leave the menu index at min(i + n, 4); n Ups leave it at max(i - n, 0) |
| AppProperties.SettingsPressesSaturate | src/app.rs:246-255 | n Downs leave the settings index at min(i + n, 2); n Ups leave it at max(i - n, 0) |
| AppProperties.JournalSelectionClamped | src/app.rs:206-217 | Up at 0, Down on an empty list, and Down at the last entry are no-ops; Up elsewhere moves back by one and Down forward by one |
| AppProperties.HelpIgnoresOtherKeys | src/app.rs:265-270 | on the help screen Esc and 'q' return to the main menu and every other key changes nothing |
| AppProperties.MainMenuEnterTable | src/app.rs:135-145 | Enter on menu items 0 to 4 opens AddJournal, the journal list, Settings, Help and Quit; only item 1 changes more than the screen |
| AppProperties.ReloadSelectsFirst | src/app.rs:218 | 'r' reloads: success selects the first new entry; failure keeps list and selection |
| AppProperties.OpenJournalListAlwaysSwitches | src/app.rs:137-140 | Enter on menu item 1 opens the journal list even when the load fails, keeping the old list |
| AppProperties.SaveRefused | src/app.rs:158-162 | 's' with an empty draft or a save in progress changes nothing |
| AppProperties.SaveOutcomes | src/app.rs:158-162 | 's' otherwise saves: success clears the draft in Normal mode; failure keeps it; the latch ends released |
| AppProperties.StepKeepsProcessingClear | src/app.rs:272-291 | no keystroke leaves the processing latch set |
| AppProperties.RunKeepsProcessingClear | src/app.rs:82-105 | over any run, the processing latch stays released |
| AppProperties.FormatTokenIsExtension | src/app.rs:315-319 | the format row's seed is the file extension, and committing it yields the same format |
| AppProperties.UnknownTokenCommitsMarkdown | src/app.rs:332-336 | committing any token other than "txt" or "json" sets Markdown |
| AppProperties.CancelEditKeepsConfig | src/app.rs:226-229 | Esc while editing discards the draft and keeps the configuration |
| AppProperties.CommitUntouchedDraftKeepsConfig | src/app.rs:311-345 | on every row, starting an edit and committing the untouched draft leaves the configuration unchanged and reports success |
| AppProperties.DraftKeysEditOnlyTheDraft | src/app.rs:235-241 | while editing a setting, a character ('q' included) is appended, Backspace drops the last character (nothing when empty), and other keys do nothing; only the draft changes |
| AppProperties.DateFormatRowCommitChangesNothing | src/app.rs:338-344 | committing the third row keeps the configuration, still saves it, and reports success |
| AppProperties.SettingsCommitApplies | src/app.rs:230-234 | a successful commit of an edited draft sets the row's field (the directory verbatim, the format by its token), ends the edit with an empty draft, reports Success, and changes nothing else |
| AppProperties.FailedConfigSaveAborts | src/app.rs:230-234 | a failing configuration save aborts the loop with the committed configuration and the row still in edit mode |
| AppProperties.EveryScreenHasExit | src/app.rs:124-267 | Esc and 'q' lead from the main menu to Quit and from every other screen back to the main menu; on Help, the journal list and the settings list nothing but the screen changes |
| AppProperties.UnboundKeysIgnored | src/app.rs:122-261 | keys that the main menu, the journal list, the Normal-mode draft screen and the settings list do not bind change nothing, as each handler's empty catch-all arm says |
| AppProperties.LeavingDraftResetsIt | src/app.rs:163-166 | leaving the draft screen by Esc or 'q' discards the draft and resets mode and latch; nothing else but the screen changes |
| AppProperties.QuitIsFinal | src/app.rs:102-117 | Quit ignores every key, and the loop exits after the next turn |
| AppProperties.NonPressTurnsIgnored | src/app.rs:89-95 | repeats, releases and empty polls change nothing |
| AppProperties.RunUnfoldsPress | src/app.rs:86-105 | a press turn goes through `Step`: an abort fails the loop with that state and error, reaching Quit exits with the new state, otherwise the loop continues from the new state |
| AppProperties.WaitingRunIsStepAll | src/app.rs:78-108 | a run of presses that neither fails nor exits ends in the state reached by feeding the same keys to `Step` one after another |
| AppProperties.MenuScenario | src/app.rs:130-141 | from item 0, Down, Down, Enter opens the settings |
| AppProperties.TypingScenario | src/app.rs:153-178 | 'e', "hi", Esc leave "hi" with the cursor at 2 in Normal mode |

## Left out

- Rendering (src/ui/screens.rs, src/ui/mod.rs, src/ui/components.rs) is widget construction only. This includes the cursor layout arithmetic at src/ui/screens.rs:115-118.
- Bootstrap (src/main.rs) is left out: terminal raw mode, the alternate screen, and argument dispatch.
- Console I/O is left out: src/commands/help.rs prints and src/utils/io.rs reads stdin.
- The interactive stdin flows `exe_add_journal`, `append_to_existing_file` and `write_to_existing_file` are left out; they prompt on the console.
- `process_with_ollama` spawns a subprocess. It is the `llm` outcome parameter of `Journal.SaveEntry`.
- JSON is not modelled. Serialisation is the `json` outcome. Extracting the "content" field on load is the `extractJson` parameter.
- The clock is not modelled; `Journal.DateString` takes year, month and day.
- File-system and configuration I/O are not modelled. This covers TOML load and save, `dirs`, `create_dir_all` and `read_dir`. They become outcome parameters, a path-to-contents map, or a `Directory` listing.
- Event-loop timing is not modelled: the 250 ms tick, `poll`, `Instant`, the empty `on_tick`, and the draw on every iteration. `App.Run` consumes a finite sequence of turns.
- Journal.SaveEntry: does not model a failure to open or write the day's file after formatting succeeds. In the source such a failure can leave the separator written without the entry.
- App.InsertChar: the draft is a sequence of characters and the cursor counts characters. The source indexes by bytes, so non-ASCII input can panic or misplace the cursor.
- Journal.IsJournalFileName: the stem length is counted in characters. The source counts bytes, so results differ only for non-ASCII stems.
- Config.JoinPath: paths are Unix strings. Windows separators and `Path` normalisation (for example of trailing slashes) are not modelled.
- Config.DirectoryDisplay: the directory is shown and seeded into the settings draft as the stored string. This assumes `Path::display` is lossless, which holds for UTF-8 paths.
- Integers are unbounded. `usize` overflow of the cursor or indices cannot occur for drafts that fit in memory.
- The texts of collaborator errors are abstract strings.

=== FILE: app.dfy ===
/** The interactive application (src/app.rs): one `App` record, a keystroke
    interpreter per screen, and the event loop that feeds it until the Quit
    screen is reached. The persistence and configuration collaborators enter
    as the outcomes they return (`Collaborators`); rendering, polling and the
    tick timer are not part of the model. */
module App {
  import opened Outcomes
  import opened Text
  import opened Config
  import opened Journal

  datatype Screen = MainMenu | AddJournal | ViewJournals | Settings | Help | Quit

  /** Editing makes every character key literal text; Normal makes some of them commands. */
  datatype InputMode = Normal | Editing

  datatype MessageType = Success | Error | Info | Warning

  /** The key codes the handlers distinguish; every other code is `OtherKey`. */
  datatype Key = Char(ch: char) | Esc | Enter | Up | Down | Left | Right | Home | End | Backspace | OtherKey

  /** The journal draft (`current_input`) and its cursor (`cursor_position`). */
  datatype Buffer = Buffer(text: string, cursor: nat) {
    predicate Valid() {
      cursor <= |text|
    }
  }

  /** Highest index of the five-item main menu. */
  const MenuLast: nat := 4

  /** Highest index of the settings list: directory, format, date format. */
  const SettingsLast: nat := 2

  datatype App = App(
    screen: Screen,
    mode: InputMode,
    buffer: Buffer,
    menuItem: nat,
    message: Option<string>,
    messageType: MessageType,
    processing: bool,
    entries: seq<JournalEntry>,
    selectedJournal: nat,
    config: Config,
    settingsSelection: nat,
    settingsInput: string,
    settingsEditing: bool)

  /** The bounds every handler keeps: the cursor inside the draft, the menu
      and settings indices inside their lists, and the journal selection on
      an entry (or 0 when there are none). */
  predicate Wf(a: App) {
    && a.buffer.Valid()
    && a.menuItem <= MenuLast
    && a.settingsSelection <= SettingsLast
    && (a.selectedJournal == 0 || a.selectedJournal < |a.entries|)
  }

  /** What the collaborators return if the keystroke calls them: saving the
      draft, loading the journal list, and saving the configuration. */
  datatype Collaborators = Collaborators(
    save: Result<()>,
    load: Result<seq<JournalEntry>>,
    configSave: Result<()>)

  /** A handled keystroke either continues, or fails out of the event loop
      (only a failing configuration save does that), with the state at the
      moment of failure. */
  datatype StepResult = Continue(app: App) | Abort(app: App, detail: string)

  const StartTypingMessage: string := "Start typing your journal entry..."
  const SaveOrQuitMessage: string := "Press 's' to save or 'q' to quit"
  const ProcessingMessage: string := "Processing with LLM..."
  const SavedMessage: string := "Journal entry saved successfully!"
  const SettingsSavedMessage: string := "Settings saved successfully!"

  // ---------------------------------------------------------------------
  // Text editing on the draft
  // ---------------------------------------------------------------------

  /** Inserts `c` at the cursor and moves the cursor past it. */
  function InsertChar(b: Buffer, c: char): (r: Buffer)
    requires b.Valid()
    ensures r.Valid() && r.cursor == b.cursor + 1 && |r.text| == |b.text| + 1
    ensures r.text[b.cursor] == c
    ensures r.text[..b.cursor] == b.text[..b.cursor] && r.text[b.cursor + 1..] == b.text[b.cursor..]
  {
    Buffer(b.text[..b.cursor] + [c] + b.text[b.cursor..], b.cursor + 1)
  }

  /** Backspace: removes the character before the cursor, so that typing it
      again restores the draft; nothing happens at position 0. */
  function DeleteBeforeCursor(b: Buffer): (r: Buffer)
    requires b.Valid()
    ensures r.Valid()
    ensures b.cursor == 0 ==> r == b
    ensures b.cursor > 0 ==> r.cursor == b.cursor - 1 && InsertChar(r, b.text[b.cursor - 1]) == b
  {
    if b.cursor > 0 then
      var r := Buffer(b.text[..b.cursor - 1] + b.text[b.cursor..], b.cursor - 1);
      assert InsertChar(r, b.text[b.cursor - 1]).text == b.text by {
        assert r.text[..r.cursor] == b.text[..b.cursor - 1];
        assert r.text[r.cursor..] == b.text[b.cursor..];
        assert b.text == b.text[..b.cursor - 1] + [b.text[b.cursor - 1]] + b.text[b.cursor..];
      }
      r
    else b
  }

  function MoveLeft(b: Buffer): (r: Buffer)
    requires b.Valid()
    ensures r.Valid() && r.text == b.text
    ensures r.cursor <= b.cursor <= r.cursor + 1
    ensures r.cursor == b.cursor <==> b.cursor == 0
  {
    if b.cursor > 0 then b.(cursor := b.cursor - 1) else b
  }

  function MoveRight(b: Buffer): (r: Buffer)
    requires b.Valid()
    ensures r.Valid() && r.text == b.text
    ensures b.cursor <= r.cursor <= b.cursor + 1
    ensures r.cursor == b.cursor <==> b.cursor == |b.text|
  {
    if b.cursor < |b.text| then b.(cursor := b.cursor + 1) else b
  }

  function MoveHome(b: Buffer): (r: Buffer)
    ensures r.Valid() && r.text == b.text
    ensures r.cursor == 0
  {
    b.(cursor := 0)
  }

  function MoveEnd(b: Buffer): (r: Buffer)
    ensures r.Valid() && r.text == b.text
    ensures r.cursor == |r.text|
  {
    b.(cursor := |b.text|)
  }

  // ---------------------------------------------------------------------
  // Helpers of the handlers
  // ---------------------------------------------------------------------

  /** The state a freshly started application has, given the configuration
      load; a failing load ends the program before the loop starts. */
  function NewApp(loaded: Result<Config>): (r: Result<App>)
    ensures r.Ok? <==> loaded.Ok?
    ensures r.Ok? ==> Wf(r.value) && r.value.screen == MainMenu && !r.value.processing
    ensures r.Ok? ==> r.value.config == loaded.value && r.value.buffer == Buffer("", 0)
    ensures r.Ok? ==> r.value.mode == Normal && r.value.message == None && r.value.messageType == Info
    ensures r.Ok? ==> r.value.entries == [] && r.value.menuItem == 0 && r.value.selectedJournal == 0
    ensures r.Ok? ==> r.value.settingsSelection == 0 && r.value.settingsInput == "" && !r.value.settingsEditing
    ensures r.Err? ==> r.detail == loaded.detail
  {
    match loaded
    case Err(detail) => Err(detail)
    case Ok(config) =>
      Ok(App(MainMenu, Normal, Buffer("", 0), 0, None, Info, false, [], 0,
             config, 0, "", false))
  }

  /** Clears the draft, returns to Normal mode and drops the processing latch. */
  function ResetInputState(a: App): (r: App)
    ensures r.buffer == Buffer("", 0) && r.mode == Normal && !r.processing
    ensures r.screen == a.screen && r.message == a.message && r.config == a.config
  {
    a.(buffer := Buffer("", 0), mode := Normal, processing := false)
  }

  /** Saving the draft through the persistence collaborator, whose outcome is
      `outcome`: success clears the draft, failure keeps it; either way a
      message reports it and the processing latch ends up released. */
  function SaveJournalEntry(a: App, outcome: Result<()>): (r: App)
    ensures !r.processing && r.screen == a.screen && r.config == a.config
    ensures outcome.Ok? ==> (r.buffer == Buffer("", 0) && r.mode == Normal
                             && r.messageType == Success && r.message == Some(SavedMessage))
    ensures outcome.Err? ==> (r.buffer == a.buffer && r.mode == a.mode
                              && r.messageType == Error && r.message == Some("Failed to save journal: " + outcome.detail))
    ensures r == a.(buffer := r.buffer, mode := r.mode, message := r.message, messageType := r.messageType, processing := false)
  {
    var busy := a.(processing := true, message := Some(ProcessingMessage), messageType := Info);
    var done :=
      match outcome
      case Ok(_) => ResetInputState(busy.(message := Some(SavedMessage), messageType := Success))
      case Err(e) => busy.(message := Some("Failed to save journal: " + e), messageType := Error);
    done.(processing := false)
  }

  /** Reloading the journal list: success replaces it and selects the first
      entry; failure keeps the old list and selection. */
  function LoadJournalEntries(a: App, outcome: Result<seq<JournalEntry>>): (r: App)
    ensures r.screen == a.screen && r.buffer == a.buffer && r.config == a.config
    ensures outcome.Ok? ==> r.entries == outcome.value && r.selectedJournal == 0 && r.messageType == Success
    ensures outcome.Err? ==> r.entries == a.entries && r.selectedJournal == a.selectedJournal && r.messageType == Error
    ensures outcome.Ok? ==> r.message == Some("Loaded " + Decimal(|outcome.value|) + " journal entries")
    ensures outcome.Err? ==> r.message == Some("Failed to load journals: " + outcome.detail)
    ensures r == a.(entries := r.entries, selectedJournal := r.selectedJournal, message := r.message, messageType := r.messageType)
  {
    match outcome
    case Ok(entries) =>
      a.(entries := entries, selectedJournal := 0,
         message := Some("Loaded " + Decimal(|entries|) + " journal entries"), messageType := Success)
    case Err(e) =>
      a.(message := Some("Failed to load journals: " + e), messageType := Error)
  }

  /** The draft seeded for the format row: the format's short token. */
  function FormatToken(f: FileFormat): (token: string)
    ensures token == Extension(f)
  {
    match f
    case Markdown => "md"
    case PlainText => "txt"
    case Json => "json"
  }

  /** The format a typed token commits to: "txt" and "json" are recognised,
      anything else falls back to Markdown. */
  function FormatFromToken(token: string): (f: FileFormat)
    ensures f == PlainText <==> token == "txt"
    ensures f == Json <==> token == "json"
  {
    if token == "txt" then PlainText
    else if token == "json" then Json
    else Markdown
  }

  /** Enter on a settings row: edit mode, with the draft seeded from the
      row's current value (nothing for the date-format row). */
  function StartEditingSetting(a: App): (r: App)
    ensures r.settingsEditing && r.config == a.config && r.settingsSelection == a.settingsSelection
    ensures a.settingsSelection == 0 ==> r.settingsInput == DirectoryDisplay(a.config)
    ensures a.settingsSelection == 1 ==> FormatFromToken(r.settingsInput) == a.config.fileFormat
    ensures a.settingsSelection >= 2 ==> r.settingsInput == ""
    ensures a.settingsSelection == 1 ==> r.settingsInput == Extension(a.config.fileFormat)
    ensures r == a.(settingsEditing := true, settingsInput := r.settingsInput)
  {
    var draft :=
      if a.settingsSelection == 0 then DirectoryDisplay(a.config)
      else if a.settingsSelection == 1 then FormatToken(a.config.fileFormat)
      else "";
    a.(settingsEditing := true, settingsInput := draft)
  }

  /** The configuration a commit of the draft produces on the selected row. */
  function CommittedConfig(c: Config, row: nat, draft: string): (r: Config)
    ensures r.dateFormat == c.dateFormat && r.autoBackup == c.autoBackup && r.editorCommand == c.editorCommand
    ensures r.journalDirectory != c.journalDirectory ==> row == 0
    ensures r.fileFormat != c.fileFormat ==> row == 1
    ensures row == 0 ==> r.journalDirectory == draft
    ensures row == 1 ==> (r.fileFormat == PlainText <==> draft == "txt") && (r.fileFormat == Json <==> draft == "json")
  {
    if row == 0 then c.(journalDirectory := draft)
    else if row == 1 then c.(fileFormat := FormatFromToken(draft))
    else c
  }

  /** Commits the draft into the configuration and saves it. The in-memory
      configuration changes before the save is attempted, so a failing save
      aborts with the changed configuration still in place. */
  function ApplySettingsChange(a: App, configSave: Result<()>): (r: StepResult)
    ensures r.app.config == CommittedConfig(a.config, a.settingsSelection, a.settingsInput)
    ensures r.Abort? <==> configSave.Err?
    ensures r.Abort? ==> r.app == a.(config := r.app.config) && r.detail == configSave.detail
    ensures r.Continue? ==> r.app == a.(config := r.app.config, message := Some(SettingsSavedMessage), messageType := Success)
  {
    var changed := a.(config := CommittedConfig(a.config, a.settingsSelection, a.settingsInput));
    match configSave
    case Err(e) => Abort(changed, e)
    case Ok(_) => Continue(changed.(message := Some(SettingsSavedMessage), messageType := Success))
  }

  // ---------------------------------------------------------------------
  // Per-screen keystroke handlers
  // ---------------------------------------------------------------------

  function HandleMainInput(a: App, key: Key, env: Collaborators): (r: App)
    requires Wf(a)
    ensures Wf(r)
    ensures r.screen != a.screen ==> r.screen != MainMenu && (key == Enter || key == Esc || key == Char('q'))
    ensures key == Enter && a.menuItem != 1 ==>
              r == a.(screen := [AddJournal, ViewJournals, Settings, Help, Quit][a.menuItem])
    ensures key == Enter && a.menuItem == 1 ==> r == LoadJournalEntries(a, env.load).(screen := ViewJournals)
    ensures key == Up ==> r == a.(menuItem := Max(a.menuItem - 1, 0))
    ensures key == Down ==> r == a.(menuItem := Min(a.menuItem + 1, MenuLast))
    ensures key == Esc || key == Char('q') ==> r == a.(screen := Quit)
    ensures key !in {Up, Down, Enter, Esc, Char('q')} ==> r == a
  {
    match key
    case Char(c) => if c == 'q' then a.(screen := Quit) else a
    case Esc => a.(screen := Quit)
    case Up => if a.menuItem > 0 then a.(menuItem := a.menuItem - 1) else a
    case Down => if a.menuItem < MenuLast then a.(menuItem := a.menuItem + 1) else a
    case Enter =>
      if a.menuItem == 0 then a.(screen := AddJournal)
      else if a.menuItem == 1 then LoadJournalEntries(a, env.load).(screen := ViewJournals)
      else if a.menuItem == 2 then a.(screen := Settings)
      else if a.menuItem == 3 then a.(screen := Help)
      else if a.menuItem == 4 then a.(screen := Quit)
      else a
    case _ => a
  }

  /** In Editing mode every key but Esc edits the draft. */
  function EditDraft(b: Buffer, key: Key): (r: Buffer)
    requires b.Valid()
    ensures r.Valid()
    ensures key.Char? ==> r.text == b.text[..b.cursor] + [key.ch] + b.text[b.cursor..] && r.cursor == b.cursor + 1
    ensures key == Backspace && b.cursor > 0 ==>
              r.text == b.text[..b.cursor - 1] + b.text[b.cursor..] && r.cursor == b.cursor - 1
    ensures key in {Left, Right, Home, End} ==> r.text == b.text
    ensures key == Left ==> r.cursor == if b.cursor > 0 then b.cursor - 1 else 0
    ensures key == Right ==> r.cursor == if b.cursor < |b.text| then b.cursor + 1 else |b.text|
    ensures key == Home ==> r.cursor == 0
    ensures key == End ==> r.cursor == |b.text|
    ensures !key.Char? && key !in {Backspace, Left, Right, Home, End} ==> r == b
    ensures key == Backspace && b.cursor == 0 ==> r == b
  {
    match key
    case Char(c) => InsertChar(b, c)
    case Backspace => DeleteBeforeCursor(b)
    case Left => MoveLeft(b)
    case Right => MoveRight(b)
    case Home => MoveHome(b)
    case End => MoveEnd(b)
    case _ => b
  }

  function HandleAddJournalInput(a: App, key: Key, env: Collaborators): (r: App)
    requires Wf(a)
    ensures Wf(r)
    ensures a.mode == Normal && key == Char('e') ==>
              r == a.(mode := Editing, message := Some(StartTypingMessage), messageType := Info)
    ensures a.mode == Editing && key != Esc ==> r == a.(buffer := EditDraft(a.buffer, key))
    ensures a.mode == Editing && key == Esc ==> r == a.(mode := Normal, message := Some(SaveOrQuitMessage), messageType := Info)
    ensures a.mode == Normal && key == Char('s') ==>
              r == if a.buffer.text != [] && !a.processing then SaveJournalEntry(a, env.save) else a
    ensures r.screen != a.screen ==> r.screen == MainMenu && a.mode == Normal && (key == Esc || key == Char('q'))
    ensures a.mode == Normal && (key == Esc || key == Char('q')) ==> r == ResetInputState(a).(screen := MainMenu)
    ensures a.mode == Normal && key !in {Esc, Char('q'), Char('e'), Char('s')} ==> r == a
  {
    match a.mode
    case Normal =>
      (match key
       case Char(c) =>
         if c == 'e' then a.(mode := Editing, message := Some(StartTypingMessage), messageType := Info)
         else if c == 's' then
           (if a.buffer.text != [] && !a.processing then SaveJournalEntry(a, env.save) else a)
         else if c == 'q' then ResetInputState(a).(screen := MainMenu)
         else a
       case Esc => ResetInputState(a).(screen := MainMenu)
       case _ => a)
    case Editing =>
      if key == Esc then a.(mode := Normal, message := Some(SaveOrQuitMessage), messageType := Info)
      else a.(buffer := EditDraft(a.buffer, key))
  }

  function HandleViewJournalsInput(a: App, key: Key, env: Collaborators): (r: App)
    requires Wf(a)
    ensures Wf(r)
    ensures key == Up ==> r == a.(selectedJournal := if a.selectedJournal > 0 then a.selectedJournal - 1 else 0)
    ensures key == Down ==> r == a.(selectedJournal := Min(a.selectedJournal + 1, Max(|a.entries| - 1, 0)))
    ensures key == Esc || key == Char('q') ==> r == a.(screen := MainMenu)
    ensures r.screen != a.screen ==> r.screen == MainMenu
    ensures key !in {Up, Down, Esc, Char('q'), Char('r')} ==> r == a
    ensures key == Char('r') ==> r == LoadJournalEntries(a, env.load)
  {
    match key
    case Char(c) =>
      if c == 'q' then a.(screen := MainMenu)
      else if c == 'r' then LoadJournalEntries(a, env.load)
      else a
    case Esc => a.(screen := MainMenu)
    case Up => if a.selectedJournal > 0 then a.(selectedJournal := a.selectedJournal - 1) else a
    case Down =>
      if |a.entries| > 0 && a.selectedJournal < |a.entries| - 1 then
        a.(selectedJournal := a.selectedJournal + 1)
      else a
    case _ => a
  }

  function HandleSettingsInput(a: App, key: Key, env: Collaborators): (r: StepResult)
    requires Wf(a)
    ensures Wf(r.app)
    ensures r.Abort? ==> a.settingsEditing && key == Enter && env.configSave.Err?
    ensures a.settingsEditing && key == Enter && r.Continue? ==>
              r.app == ApplySettingsChange(a, env.configSave).app.(settingsEditing := false, settingsInput := "")
    ensures a.settingsEditing && key == Esc ==> r == Continue(a.(settingsEditing := false, settingsInput := ""))
    ensures !a.settingsEditing && (key == Esc || key == Char('q')) ==> r == Continue(a.(screen := MainMenu))
    ensures !a.settingsEditing && key == Up ==> r == Continue(a.(settingsSelection := Max(a.settingsSelection - 1, 0)))
    ensures !a.settingsEditing && key == Down ==> r == Continue(a.(settingsSelection := Min(a.settingsSelection + 1, SettingsLast)))
    ensures !a.settingsEditing && key == Enter ==> r == Continue(StartEditingSetting(a))
    ensures !a.settingsEditing && key !in {Up, Down, Enter, Esc, Char('q')} ==> r == Continue(a)
  {
    if a.settingsEditing then
      match key
      case Esc => Continue(a.(settingsEditing := false, settingsInput := ""))
      case Enter =>
        (match ApplySettingsChange(a, env.configSave)
         case Abort(changed, e) => Abort(changed, e)
         case Continue(changed) => Continue(changed.(settingsEditing := false, settingsInput := "")))
      case Char(c) => Continue(a.(settingsInput := a.settingsInput + [c]))
      case Backspace =>
        if a.settingsInput == [] then Continue(a)
        else Continue(a.(settingsInput := a.settingsInput[..|a.settingsInput| - 1]))
      case _ => Continue(a)
    else
      match key
      case Char(c) => if c == 'q' then Continue(a.(screen := MainMenu)) else Continue(a)
      case Esc => Continue(a.(screen := MainMenu))
      case Up =>
        if a.settingsSelection > 0 then Continue(a.(settingsSelection := a.settingsSelection - 1))
        else Continue(a)
      case Down =>
        if a.settingsSelection < SettingsLast then Continue(a.(settingsSelection := a.settingsSelection + 1))
        else Continue(a)
      case Enter => Continue(StartEditingSetting(a))
      case _ => Continue(a)
  }

  function HandleHelpInput(a: App, key: Key): (r: App)
    requires Wf(a)
    ensures Wf(r)
    ensures key == Esc || key == Char('q') ==> r == a.(screen := MainMenu)
    ensures key != Esc && key != Char('q') ==> r == a
  {
    match key
    case Char(c) => if c == 'q' then a.(screen := MainMenu) else a
    case Esc => a.(screen := MainMenu)
    case _ => a
  }

  /** `handle_key_event`: one key press, dispatched on the current screen.
      Every handler keeps the state's bounds. */
  function Step(a: App, key: Key, env: Collaborators): (r: StepResult)
    requires Wf(a)
    ensures Wf(r.app)
    ensures r.Abort? ==> a.screen == Settings && a.settingsEditing && key == Enter && env.configSave.Err?
  {
    match a.screen
    case MainMenu => Continue(HandleMainInput(a, key, env))
    case AddJournal => Continue(HandleAddJournalInput(a, key, env))
    case ViewJournals => Continue(HandleViewJournalsInput(a, key, env))
    case Settings => HandleSettingsInput(a, key, env)
    case Help => Continue(HandleHelpInput(a, key))
    case Quit => Continue(a)
  }

  // ---------------------------------------------------------------------
  // The event loop
  // ---------------------------------------------------------------------

  datatype KeyKind = Press | Repeat | Release

  /** One poll of the loop: a key event, or nothing (a timeout or a non-key event). */
  datatype Event = KeyEvent(key: Key, kind: KeyKind) | NoEvent

  /** One loop iteration: the polled event and what the collaborators would
      return if the handler called them. */
  datatype Turn = Turn(event: Event, env: Collaborators)

  /** The loop left because the Quit screen was reached, failed out of a
      handler, or is still waiting for input when the turns run out. */
  datatype RunResult = Exited(app: App) | Failed(app: App, detail: string) | Waiting(app: App)

  /** `run`: each turn handles at most one key press (other key kinds and
      non-key events are ignored), then the loop stops if the screen is Quit. */
  function Run(a: App, turns: seq<Turn>): (r: RunResult)
    requires Wf(a)
    ensures Wf(r.app)
    ensures r.Exited? ==> r.app.screen == Quit && turns != []
    ensures r.Waiting? ==> turns == [] || r.app.screen != Quit
    ensures r.Failed? ==> r.app.settingsEditing && r.app.screen == Settings
    decreases |turns|
  {
    if turns == [] then Waiting(a)
    else
      var t := turns[0];
      var handled :=
        if t.event.KeyEvent? && t.event.kind == Press then Step(a, t.event.key, t.env)
        else Continue(a);
      match handled
      case Abort(b, e) => Failed(b, e)
      case Continue(b) => if b.screen == Quit then Exited(b) else Run(b, turns[1..])
  }
}

=== FILE: app_properties.dfy ===
/** Properties of the application state machine: the editing primitives
    undo each other, Editing mode makes every character literal, indices are
    clamped, the save re-entrancy guard, the settings draft/commit/cancel
    cycle, every screen's way back, and the exit of the event loop. */
module AppProperties {
  import opened Outcomes
  import opened Text
  import opened Config
  import opened App

  /** Feeds the keys in order, stopping at the first failure. */
  function StepAll(a: App, keys: seq<Key>, env: Collaborators): (r: StepResult)
    requires Wf(a)
    ensures Wf(r.app)
    decreases |keys|
  {
    if keys == [] then Continue(a)
    else match Step(a, keys[0], env)
      case Abort(b, e) => Abort(b, e)
      case Continue(b) => StepAll(b, keys[1..], env)
  }

  /** `n` presses of the same key. */
  function Presses(key: Key, n: nat): (keys: seq<Key>)
    ensures |keys| == n && forall i :: 0 <= i < n ==> keys[i] == key
  {
    seq(n, _ => key)
  }

  // ---------------------------------------------------------------------
  // Text editing
  // ---------------------------------------------------------------------

  /** Backspace right after typing a character restores the draft. */
  lemma InsertThenDeleteRestores(b: Buffer, c: char)
    requires b.Valid()
    ensures DeleteBeforeCursor(InsertChar(b, c)) == b
  {
  }

  /** Left and Right undo each other away from the draft's ends. */
  lemma LeftRightInverse(b: Buffer)
    requires b.Valid()
    ensures b.cursor > 0 ==> MoveRight(MoveLeft(b)) == b
    ensures b.cursor < |b.text| ==> MoveLeft(MoveRight(b)) == b
  {
  }

  /** On the draft screen in Normal mode, 'e' enters Editing and keeps the
      draft and cursor where they were. */
  lemma EnterEditingKeepsDraft(a: App, env: Collaborators)
    requires Wf(a) && a.screen == AddJournal && a.mode == Normal
    ensures Step(a, Char('e'), env).Continue?
    ensures Step(a, Char('e'), env).app.mode == Editing
    ensures Step(a, Char('e'), env).app.buffer == a.buffer
    ensures Step(a, Char('e'), env).app.screen == AddJournal
  {
  }

  /** In Editing mode the cursor keys move only the cursor: Left and Right by
      one, clamped to the draft, Home to its start and End to its end. */
  lemma EditingCursorKeys(a: App, env: Collaborators)
    requires Wf(a) && a.screen == AddJournal && a.mode == Editing
    ensures Step(a, Left, env) == Continue(a.(buffer := Buffer(a.buffer.text, Max(a.buffer.cursor - 1, 0))))
    ensures Step(a, Right, env) == Continue(a.(buffer := Buffer(a.buffer.text, Min(a.buffer.cursor + 1, |a.buffer.text|))))
    ensures Step(a, Home, env) == Continue(a.(buffer := Buffer(a.buffer.text, 0)))
    ensures Step(a, End, env) == Continue(a.(buffer := Buffer(a.buffer.text, |a.buffer.text|)))
  {
  }

  /** In Editing mode every character, 'q', 's' and 'e' included, is typed
      into the draft at the cursor; screen and mode stay. */
  lemma EditingTypesEveryChar(a: App, c: char, env: Collaborators)
    requires Wf(a) && a.screen == AddJournal && a.mode == Editing
    ensures Step(a, Char(c), env) == Continue(a.(buffer := InsertChar(a.buffer, c)))
  {
  }

  /** Only Esc leaves Editing mode, and it keeps the draft. No key in
      Editing mode leaves the screen or touches anything but the draft,
      the mode and the message. */
  lemma OnlyEscLeavesEditing(a: App, key: Key, env: Collaborators)
    requires Wf(a) && a.screen == AddJournal && a.mode == Editing
    ensures Step(a, key, env).Continue?
    ensures var b := Step(a, key, env).app;
      && b.screen == AddJournal
      && (b.mode == Normal <==> key == Esc)
      && (key == Esc ==> b.buffer == a.buffer)
      && b == a.(buffer := b.buffer, mode := b.mode, message := b.message, messageType := b.messageType)
  {
  }

  /** Backspace at the start of the draft changes nothing; elsewhere it
      removes exactly the character before the cursor. */
  lemma BackspaceInDraft(a: App, env: Collaborators)
    requires Wf(a) && a.screen == AddJournal && a.mode == Editing
    ensures a.buffer.cursor == 0 ==> Step(a, Backspace, env) == Continue(a)
    ensures a.buffer.cursor > 0 ==>
      var b := Step(a, Backspace, env).app.buffer;
      && b.cursor == a.buffer.cursor - 1
      && b.text == a.buffer.text[..a.buffer.cursor - 1] + a.buffer.text[a.buffer.cursor..]
  {
  }

  // ---------------------------------------------------------------------
  // Clamped indices
  // ---------------------------------------------------------------------

  /** Any number of Down presses on the main menu stops at the last item;
      any number of Up presses stops at the first. Nothing wraps. */
  lemma {:induction false} MenuPressesSaturate(a: App, n: nat, env: Collaborators)
    requires Wf(a) && a.screen == MainMenu
    decreases n
    ensures var r := StepAll(a, Presses(Down, n), env);
      r.Continue? && r.app.screen == MainMenu && r.app.menuItem == Min(a.menuItem + n, MenuLast)
    ensures var r := StepAll(a, Presses(Up, n), env);
      r.Continue? && r.app.screen == MainMenu && r.app.menuItem == Max(a.menuItem - n, 0)
  {
    if n > 0 {
      assert Presses(Down, n)[1..] == Presses(Down, n - 1);
      assert Presses(Up, n)[1..] == Presses(Up, n - 1);
      MenuPressesSaturate(Step(a, Down, env).app, n - 1, env);
      MenuPressesSaturate(Step(a, Up, env).app, n - 1, env);
    }
  }

  /** The same for the three settings rows while no row is being edited. */
  lemma {:induction false} SettingsPressesSaturate(a: App, n: nat, env: Collaborators)
    requires Wf(a) && a.screen == Settings && !a.settingsEditing
    decreases n
    ensures var r := StepAll(a, Presses(Down, n), env);
      r.Continue? && r.app.screen == Settings && r.app.settingsSelection == Min(a.settingsSelection + n, SettingsLast)
    ensures var r := StepAll(a, Presses(Up, n), env);
      r.Continue? && r.app.screen == Settings && r.app.settingsSelection == Max(a.settingsSelection - n, 0)
  {
    if n > 0 {
      assert Presses(Down, n)[1..] == Presses(Down, n - 1);
      assert Presses(Up, n)[1..] == Presses(Up, n - 1);
      SettingsPressesSaturate(Step(a, Down, env).app, n - 1, env);
      SettingsPressesSaturate(Step(a, Up, env).app, n - 1, env);
    }
  }

  /** The journal selection moves within the list: Up stops at the first
      entry, Down at the last, and Down on an empty list does nothing. */
  lemma JournalSelectionClamped(a: App, env: Collaborators)
    requires Wf(a) && a.screen == ViewJournals
    ensures a.selectedJournal == 0 ==> Step(a, Up, env) == Continue(a)
    ensures (a.entries == [] || a.selectedJournal == |a.entries| - 1) ==> Step(a, Down, env) == Continue(a)
    ensures a.selectedJournal + 1 < |a.entries| ==> Step(a, Down, env).app.selectedJournal == a.selectedJournal + 1
    ensures a.selectedJournal > 0 ==> Step(a, Up, env) == Continue(a.(selectedJournal := a.selectedJournal - 1))
  {
  }

  /** On the help screen every key but Esc and 'q' is ignored. */
  lemma HelpIgnoresOtherKeys(a: App, key: Key, env: Collaborators)
    requires Wf(a) && a.screen == Help
    ensures key != Esc && key != Char('q') ==> Step(a, key, env) == Continue(a)
    ensures key == Esc || key == Char('q') ==> Step(a, key, env) == Continue(a.(screen := MainMenu))
  {
  }

  /** Enter on the main menu opens the screen of the selected item: the draft
      screen, the journal list, settings, help, or quit. Only the journal list
      touches anything besides the screen, by reloading the entries. */
  lemma MainMenuEnterTable(a: App, env: Collaborators)
    requires Wf(a) && a.screen == MainMenu
    ensures a.menuItem == 0 ==> Step(a, Enter, env) == Continue(a.(screen := AddJournal))
    ensures a.menuItem == 1 ==> Step(a, Enter, env).app.screen == ViewJournals
    ensures a.menuItem == 2 ==> Step(a, Enter, env) == Continue(a.(screen := Settings))
    ensures a.menuItem == 3 ==> Step(a, Enter, env) == Continue(a.(screen := Help))
    ensures a.menuItem == 4 ==> Step(a, Enter, env) == Continue(a.(screen := Quit))
  {
  }

  /** A successful reload ('r') replaces the list and selects its first entry;
      a failed one keeps list and selection and reports an error. */
  lemma ReloadSelectsFirst(a: App, env: Collaborators)
    requires Wf(a) && a.screen == ViewJournals
    ensures var b := Step(a, Char('r'), env).app;
      && b.screen == ViewJournals
      && (env.load.Ok? ==> b.entries == env.load.value && b.selectedJournal == 0)
      && (env.load.Err? ==> b.entries == a.entries && b.selectedJournal == a.selectedJournal && b.messageType == Error)
  {
  }

  /** Entering the journal list from the menu switches screens whether or not
      the load succeeds; a failed load keeps the old list. */
  lemma OpenJournalListAlwaysSwitches(a: App, env: Collaborators)
    requires Wf(a) && a.screen == MainMenu && a.menuItem == 1
    ensures var b := Step(a, Enter, env).app;
      && b.screen == ViewJournals
      && (env.load.Err? ==> b.entries == a.entries && b.messageType == Error)
      && (env.load.Ok? ==> b.entries == env.load.value && b.selectedJournal == 0)
  {
  }

  // ---------------------------------------------------------------------
  // Saving a draft
  // ---------------------------------------------------------------------

  /** 's' in Normal mode does nothing when the draft is empty or a save is
      already in progress. */
  lemma SaveRefused(a: App, env: Collaborators)
    requires Wf(a) && a.screen == AddJournal && a.mode == Normal
    requires a.buffer.text == [] || a.processing
    ensures Step(a, Char('s'), env) == Continue(a)
  {
  }

  /** Otherwise 's' saves: success empties the draft, returns to Normal mode
      and reports success; failure keeps the draft and reports the error.
      Either way the processing latch is released. */
  lemma SaveOutcomes(a: App, env: Collaborators)
    requires Wf(a) && a.screen == AddJournal && a.mode == Normal
    requires a.buffer.text != [] && !a.processing
    ensures var b := Step(a, Char('s'), env).app;
      && b.screen == AddJournal && !b.processing
      && (env.save.Ok? ==> b.buffer == Buffer("", 0) && b.mode == Normal && b.messageType == Success)
      && (env.save.Err? ==> b.buffer == a.buffer && b.messageType == Error)
  {
  }

  /** No keystroke sets the processing latch for longer than its own handling. */
  lemma StepKeepsProcessingClear(a: App, key: Key, env: Collaborators)
    requires Wf(a) && !a.processing
    ensures !Step(a, key, env).app.processing
  {
    match a.screen
    case AddJournal =>
      if a.mode == Normal && key == Char('s') && a.buffer.text != [] {
        assert !SaveJournalEntry(a, env.save).processing;
      }
    case Settings =>
      assert !HandleSettingsInput(a, key, env).app.processing;
    case _ =>
  }

  /** So in every run of the loop from a state without a save in progress,
      the latch stays released, and the only reason 's' is refused is an
      empty draft. */
  lemma {:induction false} RunKeepsProcessingClear(a: App, turns: seq<Turn>)
    requires Wf(a) && !a.processing
    ensures !Run(a, turns).app.processing
    decreases |turns|
  {
    if turns != [] {
      var t := turns[0];
      if t.event.KeyEvent? && t.event.kind == Press {
        StepKeepsProcessingClear(a, t.event.key, t.env);
        var s := Step(a, t.event.key, t.env);
        if s.Continue? && s.app.screen != Quit {
          RunKeepsProcessingClear(s.app, turns[1..]);
        }
      } else if a.screen != Quit {
        RunKeepsProcessingClear(a, turns[1..]);
      }
    }
  }

  // ---------------------------------------------------------------------
  // Settings
  // ---------------------------------------------------------------------

  /** The format row's seed is the format's file extension. */
  lemma FormatTokenIsExtension(f: FileFormat)
    ensures FormatToken(f) == Extension(f)
    ensures FormatFromToken(Extension(f)) == f
  {
  }

  /** A token other than "txt" or "json", typos included, commits Markdown. */
  lemma UnknownTokenCommitsMarkdown(a: App, env: Collaborators)
    requires Wf(a) && a.screen == Settings && a.settingsEditing && a.settingsSelection == 1
    requires a.settingsInput != "txt" && a.settingsInput != "json" && env.configSave.Ok?
    ensures Step(a, Enter, env).Continue?
    ensures Step(a, Enter, env).app.config.fileFormat == Markdown
  {
  }

  /** Esc while editing a setting discards the draft and leaves the
      configuration as it was. */
  lemma CancelEditKeepsConfig(a: App, env: Collaborators)
    requires Wf(a) && a.screen == Settings && a.settingsEditing
    ensures Step(a, Esc, env) == Continue(a.(settingsEditing := false, settingsInput := ""))
  {
  }

  /** Starting to edit any row and committing the seeded draft untouched
      leaves the configuration unchanged (the date-format row is never
      changed by a commit), still saves it, and reports success. */
  lemma CommitUntouchedDraftKeepsConfig(a: App, env1: Collaborators, env2: Collaborators)
    requires Wf(a) && a.screen == Settings && !a.settingsEditing && env2.configSave.Ok?
    ensures Step(a, Enter, env1).Continue?
    ensures var editing := Step(a, Enter, env1).app;
      && editing.settingsEditing
      && Step(editing, Enter, env2).Continue?
      && Step(editing, Enter, env2).app.config == a.config
      && !Step(editing, Enter, env2).app.settingsEditing
      && Step(editing, Enter, env2).app.messageType == Success
  {
  }

  /** While a row is being edited, every character, 'q' included, extends
      the draft, Backspace drops its last character, and no
      other key but Esc and Enter does anything; the configuration is untouched. */
  lemma DraftKeysEditOnlyTheDraft(a: App, key: Key, env: Collaborators)
    requires Wf(a) && a.screen == Settings && a.settingsEditing
    requires key != Esc && key != Enter
    ensures Step(a, key, env).Continue?
    ensures var b := Step(a, key, env).app;
      && b == a.(settingsInput := b.settingsInput)
      && (key.Char? ==> b.settingsInput == a.settingsInput + [key.ch])
      && (key == Backspace && a.settingsInput != [] ==> b.settingsInput + [a.settingsInput[|a.settingsInput| - 1]] == a.settingsInput)
      && (key == Backspace && a.settingsInput == [] ==> b.settingsInput == [])
      && (!key.Char? && key != Backspace ==> b == a)
  {
  }

  /** Committing the date-format row changes no setting, yet the
      configuration is still saved and success reported. */
  lemma DateFormatRowCommitChangesNothing(a: App, env: Collaborators)
    requires Wf(a) && a.screen == Settings && a.settingsEditing && a.settingsSelection == 2
    requires env.configSave.Ok?
    ensures Step(a, Enter, env).Continue?
    ensures Step(a, Enter, env).app.config == a.config
    ensures Step(a, Enter, env).app.messageType == Success && !Step(a, Enter, env).app.settingsEditing
  {
  }

  /** Committing an edited settings draft whose save succeeds: the row's
      field takes the draft (the directory verbatim, the format by its token),
      the edit ends with an empty draft, Success is reported, and nothing else
      changes. */
  lemma SettingsCommitApplies(a: App, env: Collaborators)
    requires Wf(a) && a.screen == Settings && a.settingsEditing && env.configSave.Ok?
    ensures Step(a, Enter, env) == Continue(a.(config := CommittedConfig(a.config, a.settingsSelection, a.settingsInput),
                                               settingsEditing := false, settingsInput := "",
                                               message := Some(SettingsSavedMessage), messageType := Success))
    ensures a.settingsSelection == 0 ==> Step(a, Enter, env).app.config == a.config.(journalDirectory := a.settingsInput)
    ensures a.settingsSelection == 1 ==> Step(a, Enter, env).app.config == a.config.(fileFormat := FormatFromToken(a.settingsInput))
  {
  }

  /** A failing configuration save on commit ends the loop: the in-memory
      configuration already holds the committed value and the settings row is
      still in edit mode with its draft. */
  lemma FailedConfigSaveAborts(a: App, env: Collaborators)
    requires Wf(a) && a.screen == Settings && a.settingsEditing && env.configSave.Err?
    ensures Step(a, Enter, env)
      == Abort(a.(config := CommittedConfig(a.config, a.settingsSelection, a.settingsInput)), env.configSave.detail)
    ensures Run(a, [Turn(KeyEvent(Enter, Press), env)]).Failed?
  {
  }

  // ---------------------------------------------------------------------
  // Leaving screens and the loop
  // ---------------------------------------------------------------------

  /** Every screen but Quit has a way back: Esc and 'q' return to the main
      menu from Help, the journal list, the settings list when no row is being
      edited, and the draft in Normal mode; from the main menu they quit. */
  lemma EveryScreenHasExit(a: App, env: Collaborators)
    requires Wf(a)
    requires a.screen != Quit
    requires a.screen == Settings ==> !a.settingsEditing
    requires a.screen == AddJournal ==> a.mode == Normal
    ensures Step(a, Esc, env).Continue? && Step(a, Char('q'), env).Continue?
    ensures a.screen == MainMenu ==> Step(a, Esc, env).app.screen == Quit && Step(a, Char('q'), env).app.screen == Quit
    ensures a.screen != MainMenu ==> Step(a, Esc, env).app.screen == MainMenu && Step(a, Char('q'), env).app.screen == MainMenu
    ensures a.screen in {Help, ViewJournals, Settings} ==>
              Step(a, Esc, env) == Continue(a.(screen := MainMenu)) && Step(a, Char('q'), env) == Continue(a.(screen := MainMenu))
  {
  }

  /** Leaving the draft screen, by Esc or 'q', discards the draft and resets
      mode and latch; nothing else but the screen changes. */
  lemma LeavingDraftResetsIt(a: App, key: Key, env: Collaborators)
    requires Wf(a) && a.screen == AddJournal && a.mode == Normal
    requires key == Esc || key == Char('q')
    ensures Step(a, key, env) == Continue(a.(screen := MainMenu, buffer := Buffer("", 0), mode := Normal, processing := false))
  {
  }

  /** Keys a screen does not bind change nothing: on the main menu anything
      but Up, Down, Enter, Esc and 'q'; on the journal list anything but Up,
      Down, Esc, 'q' and 'r'; on the draft screen in Normal mode anything but
      Esc, 'q', 'e' and 's'; on the settings list, when no row is being
      edited, anything but Up, Down, Enter, Esc and 'q'. */
  lemma UnboundKeysIgnored(a: App, key: Key, env: Collaborators)
    requires Wf(a)
    ensures a.screen == MainMenu && key !in {Up, Down, Enter, Esc, Char('q')} ==> Step(a, key, env) == Continue(a)
    ensures a.screen == ViewJournals && key !in {Up, Down, Esc, Char('q'), Char('r')} ==> Step(a, key, env) == Continue(a)
    ensures a.screen == AddJournal && a.mode == Normal && key !in {Esc, Char('q'), Char('e'), Char('s')} ==>
              Step(a, key, env) == Continue(a)
    ensures a.screen == Settings && !a.settingsEditing && key !in {Up, Down, Enter, Esc, Char('q')} ==>
              Step(a, key, env) == Continue(a)
  {
  }

  /** The Quit screen ignores every key, and the loop stops after the next turn. */
  lemma QuitIsFinal(a: App, key: Key, env: Collaborators, turns: seq<Turn>)
    requires Wf(a) && a.screen == Quit
    ensures Step(a, key, env) == Continue(a)
    ensures turns != [] ==> Run(a, turns) == Exited(a)
  {
  }

  /** The loop handles only key presses: a turn with a repeat, a release or
      no event leaves the state as it was. */
  lemma NonPressTurnsIgnored(a: App, t: Turn, turns: seq<Turn>)
    requires Wf(a) && a.screen != Quit
    requires !(t.event.KeyEvent? && t.event.kind == Press)
    ensures Run(a, [t] + turns) == Run(a, turns)
  {
  }

  /** One turn of the loop with a key press: the key goes through `Step`; an
      abort fails the loop, reaching Quit exits it, and otherwise the loop
      carries on from the new state. */
  lemma RunUnfoldsPress(a: App, key: Key, env: Collaborators, turns: seq<Turn>)
    requires Wf(a)
    ensures Step(a, key, env).Abort? ==>
      Run(a, [Turn(KeyEvent(key, Press), env)] + turns) == Failed(Step(a, key, env).app, Step(a, key, env).detail)
    ensures Step(a, key, env).Continue? && Step(a, key, env).app.screen == Quit ==>
      Run(a, [Turn(KeyEvent(key, Press), env)] + turns) == Exited(Step(a, key, env).app)
    ensures Step(a, key, env).Continue? && Step(a, key, env).app.screen != Quit ==>
      Run(a, [Turn(KeyEvent(key, Press), env)] + turns) == Run(Step(a, key, env).app, turns)
  {
    assert ([Turn(KeyEvent(key, Press), env)] + turns)[1..] == turns;
  }

  function PressTurns(keys: seq<Key>, env: Collaborators): (turns: seq<Turn>)
    ensures |turns| == |keys|
  {
    if keys == [] then [] else [Turn(KeyEvent(keys[0], Press), env)] + PressTurns(keys[1..], env)
  }

  /** A run of key presses that neither fails nor exits ends where feeding
      the same keys to `Step` one after another ends. */
  lemma {:induction false} WaitingRunIsStepAll(a: App, keys: seq<Key>, env: Collaborators)
    requires Wf(a)
    ensures Run(a, PressTurns(keys, env)).Waiting? ==>
              StepAll(a, keys, env) == Continue(Run(a, PressTurns(keys, env)).app)
    decreases |keys|
  {
    if keys != [] {
      var turns := PressTurns(keys, env);
      assert turns == [Turn(KeyEvent(keys[0], Press), env)] + PressTurns(keys[1..], env);
      RunUnfoldsPress(a, keys[0], env, PressTurns(keys[1..], env));
      if Step(a, keys[0], env).Continue? {
        WaitingRunIsStepAll(Step(a, keys[0], env).app, keys[1..], env);
      }
    }
  }

  // ---------------------------------------------------------------------
  // Scenarios
  // ---------------------------------------------------------------------

  /** From the first menu item, two Downs and Enter open the settings. */
  lemma MenuScenario(a: App, env: Collaborators)
    requires Wf(a) && a.screen == MainMenu && a.menuItem == 0
    ensures StepAll(a, [Down, Down, Enter], env).app.screen == Settings
  {
  }

  /** 'e', typing "hi" and Esc leave "hi" in the draft with the cursor
      after it, in Normal mode. */
  lemma TypingScenario(a: App, env: Collaborators)
    requires Wf(a) && a.screen == AddJournal && a.mode == Normal && a.buffer == Buffer("", 0)
    ensures var r := StepAll(a, [Char('e'), Char('h'), Char('i'), Esc], env);
      r.app.buffer == Buffer("hi", 2) && r.app.mode == Normal && r.app.screen == AddJournal
  {
    var keys := [Char('e'), Char('h'), Char('i'), Esc];
    var s0 := Step(a, keys[0], env).app;
    var s1 := Step(s0, keys[1], env).app;
    var s2 := Step(s1, keys[2], env).app;
    assert s2.buffer == Buffer("hi", 2);
    assert keys[1..][1..][1..] == [Esc];
  }
}

=== FILE: config.dfy ===
/** The persisted settings of the journaling tool (src/config/mod.rs):
    the journal file formats, the default configuration and the naming of
    journal files. Reading and writing the TOML file is not modelled; the
    model takes its outcome as a parameter where the application needs it. */
module Config {
  import opened Outcomes
  import opened Text

  datatype FileFormat = Markdown | PlainText | Json

  /** Journal directory, file format, date pattern (shown, never used when
      naming files), and two auxiliary fields the core never reads. */
  datatype Config = Config(
    journalDirectory: string,
    fileFormat: FileFormat,
    dateFormat: string,
    autoBackup: bool,
    editorCommand: Option<string>)

  predicate NoChar(s: string, c: char) {
    forall i :: 0 <= i < |s| ==> s[i] != c
  }

  /** The file extension, without the dot, of journal files in format `f`. */
  function Extension(f: FileFormat): (ext: string)
    ensures |ext| > 0 && NoChar(ext, '.') && NoChar(ext, '/')
  {
    match f
    case Markdown => "md"
    case PlainText => "txt"
    case Json => "json"
  }

  /** The label shown for `f` on the settings screen; it names the extension. */
  function DisplayName(f: FileFormat): (name: string)
    ensures |name| > |Extension(f)| + 3
    ensures name[|name| - |Extension(f)| - 3..] == "(." + Extension(f) + ")"
  {
    match f
    case Markdown => "Markdown (.md)"
    case PlainText => "Plain Text (.txt)"
    case Json => "JSON (.json)"
  }

  /** Different formats never share a file extension. */
  lemma ExtensionInjective(f: FileFormat, g: FileFormat)
    requires Extension(f) == Extension(g)
    ensures f == g
  {
  }

  /** Different formats never share a label. */
  lemma DisplayNameInjective(f: FileFormat, g: FileFormat)
    requires DisplayName(f) == DisplayName(g)
    ensures f == g
  {
  }

  /** `PathBuf::join` on a Unix path: an absolute `name` replaces `dir`,
      otherwise a '/' separates the two unless `dir` is empty or already
      ends in one. */
  function JoinPath(dir: string, name: string): (path: string)
    ensures |name| <= |path| && path[|path| - |name|..] == name
    ensures (name == [] || name[0] != '/') ==> |dir| <= |path| && path[..|dir|] == dir
    ensures (name == [] || name[0] != '/') ==> |path| <= |dir| + 1 + |name|
    ensures name != [] && NoChar(name, '/') ==> FinalComponent(path) == name
  {
    var path :=
      if name != [] && name[0] == '/' then name
      else if dir == [] || dir[|dir| - 1] == '/' then dir + name
      else dir + "/" + name;
    assert name != [] && NoChar(name, '/') ==> FinalComponent(path) == name by {
      if name != [] && NoChar(name, '/') {
        FinalComponentOfJoin(path, name);
      }
    }
    path
  }

  /** The last component of a slash-separated path. */
  function FinalComponent(path: string): string {
    match LastIndexOf(path, '/')
    case None => path
    case Some(k) => path[k + 1..]
  }

  lemma FinalComponentOfJoin(path: string, name: string)
    requires name != [] && NoChar(name, '/')
    requires |name| <= |path| && path[|path| - |name|..] == name
    requires |name| < |path| ==> path[|path| - |name| - 1] == '/'
    ensures FinalComponent(path) == name
  {
  }

  /** The base of the default journal directory: the home directory, or the
      current directory "." when the platform reports none. */
  function HomeOrCurrent(home: Option<string>): (base: string)
    ensures home.Some? ==> base == home.value
    ensures home.None? ==> base == "."
  {
    if home.Some? then home.value else "."
  }

  /** Joining a relative name onto a path that ends in `last`, whose final
      character is not '/', gives a path ending in `last` "/" `name`. */
  lemma JoinedDirectorySuffix(parent: string, last: string, name: string)
    requires last != [] && last[|last| - 1] != '/' && |last| <= |parent| && parent[|parent| - |last|..] == last
    requires name != [] && name[0] != '/'
    ensures EndsWithComponents(JoinPath(parent, name), last, name)
  {
    var path := JoinPath(parent, name);
    assert parent[|parent| - 1] == last[|last| - 1];
    assert path == parent + "/" + name;
    assert path[|path| - |last| - 1 - |name|..|path| - |name| - 1] == parent[|parent| - |last|..];
  }

  /** `path` ends with the two components `parent` and `name`: the text of
      `parent`, a '/', then the text of `name`. */
  predicate EndsWithComponents(path: string, parent: string, name: string) {
    && |parent| + 1 + |name| <= |path|
    && path[|path| - |parent| - 1 - |name|..|path| - |name| - 1] == parent
    && path[|path| - |name| - 1] == '/'
    && path[|path| - |name|..] == name
  }

  /** The default journal directory `base`/Documents/RustyDiary starts with `base`. */
  lemma DefaultDirectoryPrefix(base: string)
    ensures var dir := JoinPath(JoinPath(base, "Documents"), "RustyDiary");
      |base| <= |dir| && dir[..|base|] == base
  {
    var documents := JoinPath(base, "Documents");
    var dir := JoinPath(documents, "RustyDiary");
    assert |base| <= |documents| <= |dir|;
    assert dir[..|documents|] == documents;
    assert dir[..|base|] == dir[..|documents|][..|base|];
  }

  /** The default journal directory ends with "Documents/RustyDiary". */
  lemma DefaultDirectorySuffix(base: string)
    ensures var dir := JoinPath(JoinPath(base, "Documents"), "RustyDiary");
      EndsWithComponents(dir, "Documents", "RustyDiary")
  {
    JoinedDirectorySuffix(JoinPath(base, "Documents"), "Documents", "RustyDiary");
  }

  /** The settings written on first run. `home` is the user's home directory
      when the platform reports one. */
  function DefaultConfig(home: Option<string>): (c: Config)
    ensures c.fileFormat == Markdown && c.dateFormat == "%Y-%m-%d"
    ensures !c.autoBackup && c.editorCommand == None
    ensures EndsWithComponents(c.journalDirectory, "Documents", "RustyDiary")
    ensures |HomeOrCurrent(home)| <= |c.journalDirectory| && c.journalDirectory[..|HomeOrCurrent(home)|] == HomeOrCurrent(home)
  {
    var base := HomeOrCurrent(home);
    var dir := JoinPath(JoinPath(base, "Documents"), "RustyDiary");
    DefaultDirectoryPrefix(base);
    DefaultDirectorySuffix(base);
    Config(dir, Markdown, "%Y-%m-%d", false, None)
  }

  /** The name of the journal file for `date`: the date, a dot, the extension. */
  function JournalFileName(f: FileFormat, date: string): (name: string)
    ensures NoChar(date, '/') ==> NoChar(name, '/')
    ensures |name| >= |Extension(f)| + 1 && name[|name| - |Extension(f)| - 1..] == "." + Extension(f)
    ensures |date| < |name| && name[..|date|] == date
  {
    date + "." + Extension(f)
  }

  /** The full path of the journal file for `date` under the configured directory. */
  function JournalFilePath(c: Config, date: string): (path: string)
    ensures NoChar(date, '/') ==> FinalComponent(path) == JournalFileName(c.fileFormat, date)
    ensures NoChar(date, '/') ==> |c.journalDirectory| <= |path| && path[..|c.journalDirectory|] == c.journalDirectory
    ensures NoChar(date, '/') ==> |path| <= |c.journalDirectory| + 1 + |JournalFileName(c.fileFormat, date)|
  {
    JoinPath(c.journalDirectory, JournalFileName(c.fileFormat, date))
  }

  /** The directory as the settings screen shows it and seeds the edit draft.
      Displaying a path built from a string gives that string back. */
  function DirectoryDisplay(c: Config): (shown: string)
    ensures shown == c.journalDirectory
  {
    c.journalDirectory
  }
}

=== FILE: journal.dfy ===
/** The pure parts of journal persistence (src/commands/journal.rs): the
    date string that names a day's file, the filter that recognises journal
    files when loading, the newest-first ordering of loaded entries, and the
    layout of a journal file after a save. The clock, the file system, the
    external formatting tool and JSON handling are parameters. */
module Journal {
  import opened Outcomes
  import opened Text
  import opened Config

  /** One loaded journal entry: the file stem, the displayed text and the
      file name (the record is declared in src/app.rs). */
  datatype JournalEntry = JournalEntry(date: string, content: string, filename: string)

  // ---------------------------------------------------------------------
  // Date strings
  // ---------------------------------------------------------------------

  /** Rust's `{}` formatting of a signed year. */
  function YearString(year: int): string {
    if year < 0 then "-" + Decimal(-year) else Decimal(year)
  }

  /** `format!("{}-{:02}-{:02}", year, month, day)`: the date that names the
      journal file of a day. Month and day come from the clock's calendar
      date, so they are in range. */
  function DateString(year: int, month: nat, day: nat): (date: string)
    requires 1 <= month <= 12 && 1 <= day <= 31
    ensures NoChar(date, '.') && NoChar(date, '/')
    ensures 1000 <= year <= 9999 ==> ReadsAsDate(date, year, month, day)
  {
    var y, m, d := YearString(year), ZeroPad2(month), ZeroPad2(day);
    var date := y + "-" + m + "-" + d;
    assert forall i :: 0 <= i < |date| ==> date[i] == '-' || IsDigit(date[i]) by {
      forall i | 0 <= i < |date|
        ensures date[i] == '-' || IsDigit(date[i])
      {
        if i < |y| {
          assert date[i] == y[i];
          if year < 0 && i > 0 { assert y[i] == Decimal(-year)[i - 1]; }
        } else if i == |y| || i == |y| + 3 {
        } else if i < |y| + 3 {
          assert date[i] == m[i - |y| - 1];
        } else {
          assert date[i] == d[i - |y| - 4];
        }
      }
    }
    assert 1000 <= year <= 9999 ==> ReadsAsDate(date, year, month, day) by {
      if 1000 <= year <= 9999 {
        DecimalWidth(year, 3);
        DecimalRoundTrip(year);
        assert date[..4] == y && date[5..7] == m && date[8..] == d;
      }
    }
    date
  }

  /** `date` is ten characters `YYYY-MM-DD` whose digit groups read back as
      the given year, month and day. */
  predicate ReadsAsDate(date: string, year: int, month: int, day: int) {
    && |date| == 10 && date[4] == '-' && date[7] == '-'
    && AllDigits(date[..4]) && AllDigits(date[5..7]) && AllDigits(date[8..])
    && ValueOf(date[..4]) == year && ValueOf(date[5..7]) == month && ValueOf(date[8..]) == day
  }

  /** Calendar order on (year, month, day). */
  predicate Earlier(y1: int, m1: int, d1: int, y2: int, m2: int, d2: int) {
    y1 < y2 || (y1 == y2 && (m1 < m2 || (m1 == m2 && d1 < d2)))
  }

  /** For four-digit years, ordering date strings as text orders them by
      calendar date, and the string determines the date. This is why sorting
      file stems as text puts the newest day first. */
  lemma DateOrder(y1: int, m1: nat, d1: nat, y2: int, m2: nat, d2: nat)
    requires 1000 <= y1 <= 9999 && 1 <= m1 <= 12 && 1 <= d1 <= 31
    requires 1000 <= y2 <= 9999 && 1 <= m2 <= 12 && 1 <= d2 <= 31
    ensures LexLess(DateString(y1, m1, d1), DateString(y2, m2, d2)) <==> Earlier(y1, m1, d1, y2, m2, d2)
    ensures DateString(y1, m1, d1) == DateString(y2, m2, d2) <==> (y1 == y2 && m1 == m2 && d1 == d2)
  {
    DateTextOrder(DateString(y1, m1, d1), DateString(y2, m2, d2), y1, m1, d1, y2, m2, d2);
  }

  /** Two `YYYY-MM-DD` strings compare as text as their dates compare. */
  lemma DateTextOrder(a: string, b: string, y1: int, m1: int, d1: int, y2: int, m2: int, d2: int)
    requires ReadsAsDate(a, y1, m1, d1) && ReadsAsDate(b, y2, m2, d2)
    ensures LexLess(a, b) <==> Earlier(y1, m1, d1, y2, m2, d2)
    ensures a == b <==> (y1 == y2 && m1 == m2 && d1 == d2)
  {
    var ra, rb := a[4..], b[4..];
    var ma, mb := ra[3..], rb[3..];
    var sa, sb := ma[1..], mb[1..];
    assert a == a[..4] + ra && b == b[..4] + rb;
    assert ra == "-" + ra[1..] && rb == "-" + rb[1..];
    assert ra[1..] == a[5..7] + ma && rb[1..] == b[5..7] + mb;
    assert ma == "-" + sa && mb == "-" + sb;
    assert sa == a[8..] && sb == b[8..];
    DigitsOrder(a[..4], b[..4]);
    DigitsOrder(a[5..7], b[5..7]);
    DigitsOrder(a[8..], b[8..]);
    LexLessAppend(a[..4], b[..4], ra, rb);
    LexLessAppend("-", "-", ra[1..], rb[1..]);
    LexLessAppend(a[5..7], b[5..7], ma, mb);
    LexLessAppend("-", "-", sa, sb);
    LexLessIrreflexive("-");
  }

  // ---------------------------------------------------------------------
  // File names
  // ---------------------------------------------------------------------

  /** A file name split as `Path::file_stem` and `Path::extension` split it. */
  datatype NameParts = NameParts(stem: string, extension: Option<string>)

  /** The extension is what follows the last dot, unless that dot is the
      first character (a hidden file) or there is none; ".." has none. */
  function SplitFileName(name: string): (p: NameParts)
    ensures p.extension.Some? ==> p.stem != [] && NoChar(p.extension.value, '.')
    ensures p.extension.Some? ==> name == p.stem + "." + p.extension.value
    ensures p.extension.None? ==> p.stem == name
  {
    if name == ".." then NameParts(name, None)
    else match LastIndexOf(name, '.')
      case None => NameParts(name, None)
      case Some(k) =>
        if k == 0 then NameParts(name, None)
        else
          assert name == name[..k] + "." + name[k + 1..];
          NameParts(name[..k], Some(name[k + 1..]))
  }

  /** Joining a stem and an extension with a dot and splitting again gives
      them back. */
  lemma SplitFileNameRoundTrip(stem: string, ext: string)
    requires stem != [] && NoChar(ext, '.')
    requires !(stem == "." && ext == [])
    ensures SplitFileName(stem + "." + ext) == NameParts(stem, Some(ext))
  {
    var name := stem + "." + ext;
    var k := LastIndexOf(name, '.');
    assert name[|stem|] == '.';
    assert k.Some? && k.value == |stem| by {
      forall j | |stem| < j < |name| ensures name[j] != '.' {
        assert name[j] == ext[j - |stem| - 1];
      }
    }
    assert name[..|stem|] == stem && name[|stem| + 1..] == ext;
  }

  /** The load filter: the extension is the configured format's and the stem
      is at least ten characters with '-' at positions 4 and 7. */
  predicate IsJournalFileName(name: string, f: FileFormat)
    ensures IsJournalFileName(name, f) ==>
              |name| >= 11 + |Extension(f)| && name[4] == '-' && name[7] == '-'
              && name[|name| - |Extension(f)| - 1..] == "." + Extension(f)
  {
    var p := SplitFileName(name);
    && p.extension == Some(Extension(f))
    && |p.stem| >= 10 && p.stem[4] == '-' && p.stem[7] == '-'
  }

  /** A name the filter accepts is a dated stem, a dot and the extension. */
  lemma JournalFileNameShape(name: string, f: FileFormat)
    requires IsJournalFileName(name, f)
    ensures name == SplitFileName(name).stem + "." + Extension(f)
  {
  }

  /** The file a save writes for a day with a four-digit year is one the
      load filter accepts, and its stem is the date. */
  lemma SavedFileIsLoadable(f: FileFormat, year: int, month: nat, day: nat)
    requires 1000 <= year <= 9999 && 1 <= month <= 12 && 1 <= day <= 31
    ensures IsJournalFileName(JournalFileName(f, DateString(year, month, day)), f)
    ensures SplitFileName(JournalFileName(f, DateString(year, month, day))).stem == DateString(year, month, day)
  {
    var date := DateString(year, month, day);
    SplitFileNameRoundTrip(date, Extension(f));
  }

  // ---------------------------------------------------------------------
  // Loading
  // ---------------------------------------------------------------------

  /** A directory entry as listed: its name and the result of reading it as
      text (reading fails for sub-directories and non-UTF-8 files). */
  datatype DirEntry = DirEntry(name: string, content: Result<string>)

  /** The journal directory: absent, unlistable, or listed in iteration order. */
  datatype Directory = Missing | Unlistable(detail: string) | Listing(files: seq<DirEntry>)

  /** The entry built from a kept file. For the JSON format, `extractJson`
      stands for pulling the "content" string out of the document, falling
      back to the raw text. */
  function MakeEntry(name: string, text: string, f: FileFormat, extractJson: string -> string): (e: JournalEntry)
    ensures e.filename == name && e.date == SplitFileName(name).stem
    ensures f != Json ==> e.content == text
    ensures IsJournalFileName(name, f) ==> e.filename == e.date + "." + Extension(f) && |e.date| >= 10
  {
    JournalEntry(
      SplitFileName(name).stem,
      if f == Json then extractJson(text) else text,
      name)
  }

  /** `e` is the entry that loading produces from `file`. */
  predicate LoadsAs(file: DirEntry, f: FileFormat, extractJson: string -> string, e: JournalEntry) {
    && IsJournalFileName(file.name, f)
    && file.content.Ok?
    && e == MakeEntry(file.name, file.content.value, f, extractJson)
  }

  /** Every file the filter accepts could be read. */
  predicate KeptAllReadable(files: seq<DirEntry>, f: FileFormat) {
    forall j :: 0 <= j < |files| && IsJournalFileName(files[j].name, f) ==> files[j].content.Ok?
  }

  /** The number of files the filter accepts. */
  function KeptCount(files: seq<DirEntry>, f: FileFormat): nat {
    if files == [] then 0
    else (if IsJournalFileName(files[0].name, f) then 1 else 0) + KeptCount(files[1..], f)
  }

  /** The loop of `load_journal_entries_with_config` before the sort: the
      first kept file that cannot be read aborts the load. */
  function Collect(files: seq<DirEntry>, f: FileFormat, extractJson: string -> string): (r: Result<seq<JournalEntry>>)
    ensures r.Ok? <==> KeptAllReadable(files, f)
    ensures r.Ok? ==> |r.value| == KeptCount(files, f)
    ensures r.Ok? ==> forall e :: e in r.value ==> exists j :: 0 <= j < |files| && LoadsAs(files[j], f, extractJson, e)
    ensures r.Ok? ==> forall j :: 0 <= j < |files| && IsJournalFileName(files[j].name, f) ==>
      MakeEntry(files[j].name, files[j].content.value, f, extractJson) in r.value
  {
    if files == [] then Ok([])
    else
      var file := files[0];
      var rest := Collect(files[1..], f, extractJson);
      assert forall j :: 1 <= j < |files| ==> files[j] == files[1..][j - 1];
      if !IsJournalFileName(file.name, f) then
        rest
      else if file.content.Err? then
        Err(file.content.detail)
      else if rest.Err? then
        rest
      else
        var e := MakeEntry(file.name, file.content.value, f, extractJson);
        assert LoadsAs(files[0], f, extractJson, e);
        Ok([e] + rest.value)
  }

  /** Entries ordered newest first: each date is at least every later one,
      as `sort_by(|a, b| b.date.cmp(&a.date))` leaves them. */
  predicate NewestFirst(es: seq<JournalEntry>) {
    forall i, j :: 0 <= i < j < |es| ==> LexLe(es[j].date, es[i].date)
  }

  /** Inserts `e` into a newest-first list before every entry that is not newer. */
  function InsertByDate(e: JournalEntry, es: seq<JournalEntry>): seq<JournalEntry> {
    if es == [] || LexLe(es[0].date, e.date) then [e] + es
    else [es[0]] + InsertByDate(e, es[1..])
  }

  /** A stable sort by date, newest first: the result is a permutation of
      the input in newest-first order. */
  function SortNewestFirst(es: seq<JournalEntry>): (r: seq<JournalEntry>)
    ensures multiset(r) == multiset(es)
    ensures NewestFirst(r)
  {
    if es == [] then []
    else
      var rest := SortNewestFirst(es[1..]);
      InsertByDateCorrect(es[0], rest);
      assert es == [es[0]] + es[1..];
      InsertByDate(es[0], rest)
  }

  lemma {:induction false} InsertByDateCorrect(e: JournalEntry, es: seq<JournalEntry>)
    requires NewestFirst(es)
    ensures multiset(InsertByDate(e, es)) == multiset(es) + multiset{e}
    ensures NewestFirst(InsertByDate(e, es))
  {
    if es == [] || LexLe(es[0].date, e.date) {
      var r := [e] + es;
      forall j | 0 < j < |r| ensures LexLe(r[j].date, e.date) {
        if j > 1 {
          assert LexLe(es[j - 1].date, es[0].date);
          if es[j - 1].date != es[0].date && es[0].date != e.date {
            LexLessTransitive(es[j - 1].date, es[0].date, e.date);
          }
        }
      }
    } else {
      var tail := InsertByDate(e, es[1..]);
      InsertByDateCorrect(e, es[1..]);
      assert es == [es[0]] + es[1..];
      LexLessTotal(es[0].date, e.date);
      var r := [es[0]] + tail;
      forall j | 0 <= j < |tail| ensures LexLe(tail[j].date, es[0].date) {
        assert tail[j] in multiset(es[1..]) + multiset{e};
        if tail[j] != e {
          assert tail[j] in es[1..];
        }
      }
    }
  }


  /** `load_journal_entries_with_config`: a missing directory loads nothing;
      otherwise every kept file becomes one entry, newest first, and the load
      fails if the directory or any kept file cannot be read. */
  function LoadEntries(dir: Directory, f: FileFormat, extractJson: string -> string): (r: Result<seq<JournalEntry>>)
    ensures dir.Missing? ==> r == Ok([])
    ensures dir.Unlistable? ==> r == Err(dir.detail)
    ensures dir.Listing? ==> (r.Ok? <==> KeptAllReadable(dir.files, f))
    ensures r.Ok? ==> NewestFirst(r.value)
    ensures r.Ok? && dir.Listing? ==> |r.value| == KeptCount(dir.files, f)
    ensures r.Ok? && dir.Listing? ==> forall e :: e in r.value ==>
      exists j :: 0 <= j < |dir.files| && LoadsAs(dir.files[j], f, extractJson, e)
    ensures r.Ok? && dir.Listing? ==> forall j :: 0 <= j < |dir.files| && IsJournalFileName(dir.files[j].name, f) ==>
      MakeEntry(dir.files[j].name, dir.files[j].content.value, f, extractJson) in r.value
  {
    match dir
    case Missing => Ok([])
    case Unlistable(detail) => Err(detail)
    case Listing(files) =>
      match Collect(files, f, extractJson)
      case Err(detail) => Err(detail)
      case Ok(es) =>
        assert forall e :: e in SortNewestFirst(es) <==> e in es by {
          assert forall e :: e in SortNewestFirst(es) <==> e in multiset(SortNewestFirst(es));
        }
        assert |SortNewestFirst(es)| == |multiset(SortNewestFirst(es))|;
        Ok(SortNewestFirst(es))
  }

  // ---------------------------------------------------------------------
  // Saving
  // ---------------------------------------------------------------------

  /** What `writeln!(file, "\n---\n")` puts between an existing entry and the next. */
  const EntrySeparator: string := "\n---\n\n"

  /** The text written for an entry: the external tool's output for
      Markdown, the entry itself for plain text, the JSON document for JSON.
      `llm` and `json` are the outcomes of those two producers. */
  function FormatEntry(entry: string, f: FileFormat, llm: Result<string>, json: Result<string>): (r: Result<string>)
    ensures f == PlainText ==> r == Ok(entry)
    ensures r.Err? <==> (f == Markdown && llm.Err?) || (f == Json && json.Err?)
    ensures f != PlainText ==> r == (if f == Markdown then llm else json)
  {
    match f
    case Markdown => llm
    case PlainText => Ok(entry)
    case Json => json
  }

  /** `after` is `before` with only the file at `path` written: it now ends
      with `text` and a newline, and any content it had is kept as a prefix. */
  predicate WroteOnly(before: map<string, string>, after: map<string, string>, path: string, text: string) {
    && after.Keys == before.Keys + {path}
    && (forall p :: p in before && p != path ==> after[p] == before[p])
    && |text| + 1 <= |after[path]|
    && after[path][|after[path]| - |text| - 1..] == text + "\n"
    && (path in before ==> |before[path]| <= |after[path]| && after[path][..|before[path]|] == before[path])
  }

  /** The day's file after the write: created, or appended to after the separator. */
  function WriteDayFile(files: map<string, string>, path: string, text: string): (after: map<string, string>)
    ensures WroteOnly(files, after, path, text)
  {
    var prefix := if path in files then files[path] + EntrySeparator else "";
    var written := prefix + text + "\n";
    assert written[..|prefix|] == prefix;
    assert written[|written| - |text| - 1..] == text + "\n";
    assert path in files ==> written[..|files[path]|] == files[path] by {
      if path in files {
        assert written[..|files[path]|] == prefix[..|files[path]|];
      }
    }
    var after := files[path := written];
    assert forall p :: p in files && p != path ==> after[p] == files[p];
    after
  }

  /** The files after a save together with its outcome. */
  datatype SaveResult = SaveResult(files: map<string, string>, outcome: Result<()>)

  /** `save_journal_entry_with_config` over a store mapping paths to contents.
      The day's file is created holding the formatted entry and a newline, or,
      when it exists, has the separator, the formatted entry and a newline
      appended. `mkdir` is the outcome of creating the journal directory. */
  function SaveEntry(entry: string, c: Config, year: int, month: nat, day: nat,
                     mkdir: Result<()>, llm: Result<string>, json: Result<string>,
                     files: map<string, string>): (r: SaveResult)
    requires 1 <= month <= 12 && 1 <= day <= 31
    ensures r.outcome.Ok? <==> mkdir.Ok? && FormatEntry(entry, c.fileFormat, llm, json).Ok?
    ensures r.outcome.Err? ==> r.files == files
    ensures r.outcome.Ok? ==> WroteOnly(files, r.files, JournalFilePath(c, DateString(year, month, day)),
                                        FormatEntry(entry, c.fileFormat, llm, json).value)
  {
    var path := JournalFilePath(c, DateString(year, month, day));
    if mkdir.Err? then SaveResult(files, Err(mkdir.detail))
    else match FormatEntry(entry, c.fileFormat, llm, json)
      case Err(detail) => SaveResult(files, Err(detail))
      case Ok(text) => SaveResult(WriteDayFile(files, path, text), Ok(()))
  }

  /** Plain text is written verbatim: a new day's file holds the entry and a
      newline; an existing one gets the separator, the entry and a newline
      after its old content. */
  lemma PlainTextLayout(entry: string, c: Config, year: int, month: nat, day: nat,
                        llm: Result<string>, json: Result<string>, files: map<string, string>)
    requires 1 <= month <= 12 && 1 <= day <= 31 && c.fileFormat == PlainText
    ensures var path := JournalFilePath(c, DateString(year, month, day));
      var r := SaveEntry(entry, c, year, month, day, Ok(()), llm, json, files);
      && r.outcome.Ok?
      && (path !in files ==> r.files[path] == entry + "\n")
      && (path in files ==> r.files[path] == files[path] + "\n---\n\n" + entry + "\n")
  {
  }

  /** A formatting failure (the external tool for Markdown, serialisation
      for JSON) happens before the file is opened: the error is returned and
      no file changes. */
  lemma FormattingFailureLeavesFiles(entry: string, c: Config, year: int, month: nat, day: nat,
                                     llm: Result<string>, json: Result<string>, files: map<string, string>)
    requires 1 <= month <= 12 && 1 <= day <= 31
    requires (c.fileFormat == Markdown && llm.Err?) || (c.fileFormat == Json && json.Err?)
    ensures var r := SaveEntry(entry, c, year, month, day, Ok(()), llm, json, files);
      r.outcome.Err? && r.files == files
      && r.outcome.detail == (if c.fileFormat == Markdown then llm.detail else json.detail)
  {
  }

  /** Every loaded entry is named by its date: its file name is the date, a
      dot and the configured extension. */
  lemma LoadedEntriesNamedByDate(dir: Directory, f: FileFormat, extractJson: string -> string)
    requires dir.Listing? && LoadEntries(dir, f, extractJson).Ok?
    ensures forall e :: e in LoadEntries(dir, f, extractJson).value ==>
      |e.date| >= 10 && e.date[4] == '-' && e.date[7] == '-' && e.filename == e.date + "." + Extension(f)
  {
  }
}

=== FILE: outcomes.dfy ===
/** Failure-carrying values shared by every module of the model.
    The journaling tool reports failures as displayable error values
    (`anyhow::Error`, `Box<dyn Error>`); the model keeps only their text. */
module Outcomes {

  /** An optional value, as Rust's `Option`. */
  datatype Option<+T> = None | Some(value: T)

  /** The outcome of a fallible operation: a value, or the text of the error. */
  datatype Result<+T> = Ok(value: T) | Err(detail: string)
}

=== FILE: text.dfy ===
/** Character-level helpers: Rust's decimal formatting of unsigned integers
    (`{}` and `{:02}`), the inverse reading of a digit string, and the
    lexicographic order Rust uses to compare strings. */
module Text {
  import opened Outcomes

  predicate IsDigit(c: char) {
    '0' <= c <= '9'
  }

  predicate AllDigits(s: string) {
    forall i :: 0 <= i < |s| ==> IsDigit(s[i])
  }

  function DigitChar(d: nat): (c: char)
    requires d < 10
    ensures IsDigit(c) && c as int - '0' as int == d
  {
    (d + '0' as int) as char
  }

  function DigitValue(c: char): (d: nat)
    requires IsDigit(c)
    ensures d < 10 && DigitChar(d) == c
  {
    c as int - '0' as int
  }

  /** The smaller of two integers. */
  function Min(x: int, y: int): (m: int)
    ensures m <= x && m <= y && (m == x || m == y)
  {
    if x <= y then x else y
  }

  /** The larger of two integers. */
  function Max(x: int, y: int): (m: int)
    ensures x <= m && y <= m && (m == x || m == y)
  {
    if x >= y then x else y
  }

  function Pow10(k: nat): (p: nat)
    ensures p >= 1
  {
    if k == 0 then 1 else 10 * Pow10(k - 1)
  }

  /** Rust's `{}` formatting of an unsigned integer: its decimal digits,
      most significant first, without leading zeros. */
  function Decimal(n: nat): (s: string)
    ensures 1 <= |s| && AllDigits(s)
    ensures n < 10 <==> |s| == 1
  {
    if n < 10 then [DigitChar(n)] else Decimal(n / 10) + [DigitChar(n % 10)]
  }

  /** The number a string of decimal digits denotes (the empty string denotes 0). */
  function ValueOf(s: string): nat
    requires AllDigits(s)
  {
    if s == [] then 0 else 10 * ValueOf(s[..|s| - 1]) + DigitValue(s[|s| - 1])
  }

  /** Reading back what `Decimal` printed gives the number printed. */
  lemma {:induction false} DecimalRoundTrip(n: nat)
    ensures ValueOf(Decimal(n)) == n
  {
    if n >= 10 {
      DecimalRoundTrip(n / 10);
      var s := Decimal(n);
      assert s[..|s| - 1] == Decimal(n / 10);
    }
  }

  /** A number with k + 1 digits prints as exactly k + 1 characters. */
  lemma {:induction false} DecimalWidth(n: nat, k: nat)
    requires Pow10(k) <= n < Pow10(k + 1)
    ensures |Decimal(n)| == k + 1
  {
    if k > 0 {
      assert Pow10(k) == 10 * Pow10(k - 1);
      assert Pow10(k + 1) == 10 * Pow10(k);
      DecimalWidth(n / 10, k - 1);
    }
  }

  /** Rust's `{:02}` formatting: the decimal digits, left-padded with '0'
      to at least two characters. */
  function ZeroPad2(n: nat): (s: string)
    ensures AllDigits(s) && ValueOf(s) == n
    ensures n < 100 ==> |s| == 2
  {
    DecimalRoundTrip(n);
    assert 10 <= n < 100 ==> |Decimal(n)| == 2 by {
      if 10 <= n < 100 { DecimalWidth(n, 1); }
    }
    var d := Decimal(n);
    if |d| < 2 then
      assert ValueOf("0" + d) == ValueOf(d) by {
        assert ("0" + d)[..1] == "0";
      }
      "0" + d
    else d
  }

  /** Strict lexicographic order on strings. Rust compares `str` values by
      their UTF-8 bytes, which orders them exactly as their code points. */
  predicate LexLess(a: string, b: string)
    ensures LexLess(a, b) ==> a != b
    ensures |a| < |b| && a == b[..|a|] ==> LexLess(a, b)
    decreases |a|
  {
    |b| > 0 && (|a| == 0 || a[0] < b[0] || (a[0] == b[0] && LexLess(a[1..], b[1..])))
  }

  predicate LexLe(a: string, b: string) {
    a == b || LexLess(a, b)
  }

  lemma {:induction false} LexLessIrreflexive(a: string)
    ensures !LexLess(a, a)
  {
    if |a| > 0 {
      LexLessIrreflexive(a[1..]);
    }
  }

  lemma {:induction false} LexLessTransitive(a: string, b: string, c: string)
    requires LexLess(a, b) && LexLess(b, c)
    ensures LexLess(a, c)
  {
    if |a| > 0 && a[0] == b[0] && b[0] == c[0] {
      LexLessTransitive(a[1..], b[1..], c[1..]);
    }
  }

  /** Any two distinct strings are ordered one way or the other. */
  lemma {:induction false} LexLessTotal(a: string, b: string)
    requires a != b
    ensures LexLess(a, b) || LexLess(b, a)
  {
    if |a| > 0 && |b| > 0 && a[0] == b[0] {
      assert a == [a[0]] + a[1..] && b == [b[0]] + b[1..];
      LexLessTotal(a[1..], b[1..]);
    }
  }

  /** Comparing two strings that start with prefixes of equal length compares
      the prefixes first and the rest only on a tie. */
  lemma {:induction false} LexLessAppend(x: string, y: string, p: string, q: string)
    requires |x| == |y|
    ensures LexLess(x + p, y + q) <==> LexLess(x, y) || (x == y && LexLess(p, q))
  {
    if |x| > 0 {
      assert (x + p)[1..] == x[1..] + p;
      assert (y + q)[1..] == y[1..] + q;
      LexLessAppend(x[1..], y[1..], p, q);
      if x[0] == y[0] {
        assert x == y <==> x[1..] == y[1..] by {
          assert x == [x[0]] + x[1..] && y == [y[0]] + y[1..];
        }
      }
    } else {
      assert x + p == p && y + q == q;
    }
  }

  /** On digit strings of equal width, lexicographic order is numeric order,
      and equal strings are exactly those of equal value. */
  lemma {:induction false} DigitsOrder(x: string, y: string)
    requires |x| == |y| && AllDigits(x) && AllDigits(y)
    ensures LexLess(x, y) <==> ValueOf(x) < ValueOf(y)
    ensures x == y <==> ValueOf(x) == ValueOf(y)
  {
    if |x| > 0 {
      var n := |x| - 1;
      var x', y' := x[..n], y[..n];
      var c, d := x[n], y[n];
      assert x == x' + [c] && y == y' + [d];
      DigitsOrder(x', y');
      LexLessAppend(x', y', [c], [d]);
      assert LexLess([c], [d]) <==> c < d;
      assert DigitValue(c) < DigitValue(d) <==> c < d;
      assert DigitValue(c) == DigitValue(d) <==> c == d;
    }
  }

  /** The position of the last occurrence of `c` in `s`, if any. */
  function LastIndexOf(s: string, c: char): (k: Option<nat>)
    ensures k.Some? ==> k.value < |s| && s[k.value] == c
    ensures k.Some? ==> forall j :: k.value < j < |s| ==> s[j] != c
    ensures k.None? ==> forall j :: 0 <= j < |s| ==> s[j] != c
  {
    if s == [] then None
    else if s[|s| - 1] == c then Some(|s| - 1)
    else LastIndexOf(s[..|s| - 1], c)
  }
}
